=== FILE: README.md ===
# bakonf selection engine, modelled in Dafny

bakonf builds a tar archive of a machine's configuration files. Its
selection engine walks the include list, skips excluded paths, decides for
each file whether it must be archived, and builds the list of paths for the
archive writer, parents before children. The decision compares the file on
disk with a fingerprint record stored at the previous run. Records live in
a key/value database keyed `file:/` + path.

This project models that engine:

- `FileStates` (`file_state.dfy`): the state of one file, read from disk
  (`_readdisk`) or decoded from a record (`unserialize`). It also models the
  lazily computed MD5/SHA-1 digests (`_readhashes`, `getmd5`, `getsha`), the
  comparison rule (`__eq__`, `__ne__`) and the NUL-separated record format
  (`serialize`).
- `Subjects` (`subject.dfy`): `SubjectFile`, which pairs the physical state
  with the decoded record and decides `needsbackup`.
- `Store` (`store.dfy`): opening the database at backup level 0 (new store)
  or 1 (existing store: version and date checks, staleness warning), and the
  record key.
- `Exclusion`, `Selection`, `Paths` (`exclusion.dfy`, `selection.dfy`,
  `paths.dfy`):
  - the exclusion patterns;
  - `addparents`;
  - `os.path.dirname` and `os.path.join`.
- `Manager` (`manager.dfy`): the `FileManager` class. Its fields are the lists
  and maps the source updates in place (`scanned`, `subjects`, `filelist`,
  `errorlist`, the store). Its methods are `_scanfile`, `_helper`, the
  directory walk, `checksources` and `notifywritten`. `Valid()` is the
  invariant every method keeps:
  - every subject is a scanned, non-excluded path that needs backup, with its
    state read from disk;
  - the file list has no duplicates and lists parents first;
  - every error entry is a non-excluded path whose lstat fails with that
    reason.
- `PyText`, `Disk`, `Wrappers`: Python's integer formatting and parsing,
  `str.split` and `str.join`; the disk as a finite map from path to lstat
  result; an Option/Result pair.

The model keeps these behaviours of the code:

- The user and group of a state read from disk are ints, but decoded ones
  are strings. So a symbolic link never equals its record, and it is
  selected on every run (`Subjects.SymlinkAlwaysReselected`; see Findings).
  The intended comparison is `FileStates.EqualsIntended` with
  `Subjects.NeedsBackupIntended`; the `FileManager` keeps the rule as
  written, since that is what decides the archive.
- `addparents` returns at once when the item's parent is `/`. A selected
  file directly under `/` is therefore kept in `subjects` but not put in the
  file list.
- The walk descends into excluded directories. Only the paths in them are
  skipped, one by one, by the exclusion test.
- The lstat of an include entry in `checksources` is not guarded. Its
  failure ends `checksources` with an OSError (`CheckSources` returns it).
- The record key is `"file:/%s" % path`, so an absolute path gives
  `file://…`.
- The database path is always excluded.

The disk and the two digest functions are fixed for a run. They are const
fields of `FileManager`. The clock reading is a parameter of opening the
store.

## Model

| member | source | states |
|---|---|---|
| Disk.Lstat | bakonf.py:129 | lstat of a missing path fails with "No such file or directory"; otherwise the entry's inode or its error text |
| Disk.FileType | bakonf.py:135 | the S_IFMT field of a mode is a multiple of 0x1000 no larger than 0xF000, for negative decoded modes too |
| Disk.TruncSeconds | bakonf.py:263 | `%i` of the mtime as truncation toward zero of the exact timestamp, bounded on both sides for either sign |
| Disk.ReadChunk | bakonf.py:154-158 | `fh.read(65535)`: the next at most 65535 bytes from the current position, empty exactly at end of file |
| Paths.DirName | bakonf.py:516 | os.path.dirname is a prefix of the path, keeps an absolute path absolute, is strictly shorter unless the path is "/", and is "/" for "/" |
| Paths.JoinPath | bakonf.py:451 | joining a plain name onto a directory gives a longer path that starts with the directory and stays absolute |
| Paths.Chain | bakonf.py:508-525 | the dirname chain of a path below "/", top-down, ends with the path; every entry is an absolute prefix of it other than "/" |
| Paths.ChainMember | bakonf.py:516-519 | the chain of any path on another path's chain is a prefix of that chain |
| Paths.Canonical | bakonf.py:672 | collapsing the leading separators of an absolute path gives a Rooted path and leaves a Rooted one alone |
| Paths.DoubleSlashStuck | bakonf.py:516-519 | as written, every dirname ancestor of "//" + name is "//", so the recursion's test for "/" never succeeds |
| Paths.ReachesRoot | bakonf.py:516-519 | from a Rooted path, taking dirname at least as many times as its length reaches "/" |
| PyText.IntStrRoundTrip | bakonf.py:254-291 | `int()` reads back what `%i` writes, for every integer |
| PyText.ParseSigned | bakonf.py:275-277 | an accepted sign-and-digits text, with no blank between them, ends in a digit |
| PyText.ParseIntText | bakonf.py:275-277 | what Python 2 `int()` accepts between the surrounding whitespace ends in a digit, and reads every sign-then-digits text with its own value |
| PyText.BlankAfterSign | bakonf.py:275-277 | `int()` and `long()` skip any whitespace between the sign and the digits: `"- 5"` reads as -5 |
| PyText.ParseLong | bakonf.py:276 | Python 2 `long()` accepts every text `int()` accepts, with the same value |
| PyText.LongSuffix | bakonf.py:276 | `long()` reads `%i` text both bare and followed by the `L` suffix of a Python 2 long |
| PyText.IntStrAsFloat | bakonf.py:379-390 | `float()` reads back the date text written at level 0 as the same finite number |
| PyText.NatStrAsFloat | bakonf.py:390 | `float()` reads the digits of a natural number as that number |
| PyText.NegIntStrAsFloat | bakonf.py:390 | `float()` reads the `"%i"` text of a negative integer as that integer |
| PyText.UnsignedFloat | bakonf.py:390 | text starting with a digit is read by `float()` as the decimal number it spells |
| PyText.NegatedFloat | bakonf.py:390 | a minus sign in front of such text negates the number |
| PyText.DigitsDecimal | bakonf.py:390 | a plain run of digits is a decimal number with that value |
| PyText.DecimalExponent | bakonf.py:390 | digits, `e` and digits are the mantissa scaled by ten to the exponent |
| PyText.ExponentForm | bakonf.py:390 | `float()` accepts exponent notation with either `e` or `E` |
| PyText.ScaledPower | bakonf.py:390 | scaling by ten to a non-negative exponent multiplies by that power, to a negative one divides, to zero leaves the number alone |
| PyText.SpecialForms | bakonf.py:390 | for every sign (none, `+`, `-`) and every letter case, `float()` reads `inf` and `infinity` as an infinity that is negative exactly under `-`, and `nan` as NaN |
| PyText.SignedFloat | bakonf.py:390 | after an optional sign, `float()` reads the rest of a text with no space at its ends and no second sign, negative exactly under `-` |
| PyText.UnsignedReject | bakonf.py:390 | text starting with a digit that is no decimal number is rejected by `float()` |
| PyText.ExponentWithoutDigits | bakonf.py:390 | digits followed by `e` and nothing else are no decimal number |
| PyText.EmptyExponent | bakonf.py:390 | `float()` rejects any run of digits followed by `e` or `E` with no exponent digits |
| PyText.SplitCons | bakonf.py:273-274 | splitting at a first separator yields the piece before it followed by the split of the rest |
| PyText.SplitJoin | bakonf.py:254-291 | splitting on NUL the NUL-join of NUL-free fields gives the fields back |
| PyText.Split | bakonf.py:273-274 | str.split gives at least one field |
| FileStates.ReadDisk | bakonf.py:116-142 | a failing lstat gives a forced state; a symbolic link whose readlink fails gives a forced state that keeps its stat; otherwise the lstat fields, with the link target for a link and "" for anything else, and no digests yet |
| FileStates.ReadHashes | bakonf.py:144-167 | the chunked read loop feeds the whole contents to both digests; a regular file gets their hexdigests; an unreadable file or any other type gets ""; a decoded state is left as it is |
| FileStates.GetMd5 | bakonf.py:217-232 | getmd5 returns the cached, stored or just computed MD5, caching it for an uncached regular file, and every later call answers the same whatever the disk holds then |
| FileStates.GetSha | bakonf.py:234-249 | the same for the SHA-1 digest |
| FileStates.HashPair | bakonf.py:217-249 | the digests a state reports are "" for a forced state and for an uncached non-regular file, and have the lengths the decoder accepts when the digest functions are sound |
| FileStates.Equals | bakonf.py:169-199 | comparing two physical or two decoded states is the assertion failure; a forced state equals nothing |
| FileStates.EqualsCharacterization | bakonf.py:169-199 | a decoded and a read state are equal, in either order, exactly when the read succeeded, both are regular files and size and both digests agree |
| FileStates.NotEqualsCharacterization | bakonf.py:201-203 | `!=` is the negation of that rule, in either order |
| FileStates.Serialize | bakonf.py:254-268 | a record exists for every state except one whose lstat failed (the TypeError on its mode) |
| FileStates.Unserialize | bakonf.py:270-291 | decoding succeeds exactly when the text splits into nine fields, mode and mtime are `int()` integers, size a `long()` integer (an `L` suffix allowed; blanks after the sign allowed in all three) and the digest lengths are 0/32 and 0/40; the result is a well-formed decoded state |
| FileStates.PhysicalRoundTrip | bakonf.py:254-291 | the record of a state read from disk decodes to the same name, mode, size, link target and digests, the mtime in whole seconds, and user and group as decimal strings |
| FileStates.ForcedRoundTrip | bakonf.py:116-142 | the record of a link whose readlink failed decodes, with "None" as its target and no digests |
| FileStates.VirtualRoundTrip | bakonf.py:254-291 | a decoded state with NUL-free fields serializes to a record that decodes back to it |
| Subjects.MakeSubject | bakonf.py:298-322 | the physical state is read from disk; forced exactly when there is no record or it does not decode, and otherwise the decoded record is kept |
| Subjects.SerializeSubject | bakonf.py:333-337 | the record of the physical state, absent only when its lstat failed |
| Subjects.NeedsBackupCharacterization | bakonf.py:329-331 | a path is left out exactly when its record decodes, it is a regular file now and in the record, and size and both digests agree |
| Subjects.UnchangedFileNotReselected | bakonf.py:329-337 | a regular file whose record was written from the same disk state is not selected |
| Subjects.ChangedFileReselected | bakonf.py:329-331 | a regular file whose size or digest changed since its record was written is selected |
| Subjects.TypeChangeReselected | bakonf.py:329-331 | a path that turned from or into a regular file since its record was written is selected |
| Subjects.SymlinkAlwaysReselected | bakonf.py:184-189 | as written, a symbolic link is selected whatever record is stored |
| FileStates.EqualsIntended | bakonf.py:171-189 | the comparison the docstring describes agrees with `__eq__` except on two symbolic links, where it holds exactly when target, user and group as record text, and permission bits agree |
| Subjects.UnchangedSymlinkNotReselected | bakonf.py:171-189 | under that comparison, a symbolic link whose record was written from the same disk state is not selected |
| Subjects.RetargetedSymlinkReselected | bakonf.py:171-189 | under that comparison, a symbolic link whose target changed since its record was written is selected |
| Store.FileKey | bakonf.py:438 | the record key is "file:/" followed by the path; distinct paths get distinct keys; no record key is an administrative key |
| Store.OpenStore | bakonf.py:369-392 | a level other than 0 or 1 raises ValueError; level 0 gives a store holding just the version and the date; level 1 succeeds exactly when the store exists, both keys are present, the version is "1" and `float()` accepts the date (decimal or exponent notation, `inf`, `nan`); a missing store, a missing key, another version (reported with the version found) and an unreadable date each give their own error; on success it warns exactly when `now - date > 8 days` holds in floating point: by the number for a finite date, never for `+inf` or NaN, always for `-inf` |
| Store.ReopenAfterRebuild | bakonf.py:377-392 | a store created at level 0, with any records added since, reopens at level 1 and warns exactly when more than 8 days passed |
| Exclusion.IsExcluded | bakonf.py:489-494 | a path is excluded exactly when some pattern matches it |
| Exclusion.PatternList | bakonf.py:362-364 | the configured patterns followed by the one for the database path, which is therefore excluded |
| Exclusion.PrefixExclusionInherited | bakonf.py:489-494 | every path below a prefix-excluded path is excluded |
| Selection.AppendNew | bakonf.py:520-523 | appending unless present keeps the old list as a prefix, adds the item, keeps the list duplicate-free, and keeps parents first when the item's parent is listed |
| Selection.WithParents | bakonf.py:508-525 | addparents only appends; it adds exactly the missing entries of the item's chain; it adds nothing when the parent is "/"; it keeps the list duplicate-free and parents first |
| Selection.WithParentsNoop | bakonf.py:508-525 | when the whole chain is listed already, addparents changes nothing |
| Selection.WithParentsIdempotent | bakonf.py:508-525 | adding the same item twice is the same as adding it once |
| Selection.OrderedHoldsAncestors | bakonf.py:508-525 | in a parents-first list, every ancestor of an entry (below "/") comes before it |
| Manager.StatErrors | bakonf.py:450-460 | the error entries of one listing are the (path, strerror) pairs of its non-excluded paths whose lstat fails, and nothing else |
| Manager.WrittenRecordNotReselected | bakonf.py:538-539 | the record notifywritten stores for a regular file makes the next run over the same disk leave that file out |
| Manager.SelectKeepsFilelistOk | bakonf.py:483-484 | selecting one more path and adding its parents keeps the file list duplicate-free, parents first, and made of selected paths and their parents |
| Manager.FileManager.constructor | bakonf.py:359-368 | empty lists, the patterns with the database path last, and the invariant |
| Manager.FileManager.Open | bakonf.py:359-393 | construction fails exactly as opening the store fails; otherwise a manager over the opened store with empty lists |
| Manager.FileManager.DbPut | bakonf.py:395-403 | the store gains or replaces that one record; the selection invariant still holds |
| Manager.FileManager.DbGet | bakonf.py:405-417 | the stored value, or None exactly when the key is absent |
| Manager.FileManager.DbHas | bakonf.py:419-427 | whether the key is present |
| Manager.FileManager.FindFile | bakonf.py:429-440 | the SubjectFile for the record under the path's key; forced when there is none or it does not decode |
| Manager.FileManager.IsExcludedPath | bakonf.py:489-494 | the loop that stops at the first matching pattern answers whether some pattern matches |
| Manager.FileManager.AddParents | bakonf.py:508-525 | the recursive in-place insertion leaves the file list equal to WithParents of the old list |
| Manager.FileManager.Keep | bakonf.py:483-484 | the SubjectFile is stored under its path and the path is added with its parents, keeping the invariant |
| Manager.FileManager.ScanFile | bakonf.py:476-487 | an excluded or already scanned path changes nothing; any other path is appended to scanned; it is kept and listed with its parents, and returned, exactly when it needs backup against the store |
| Manager.FileManager.Visit | bakonf.py:451-463 | one listed path: an excluded one is skipped; a failing lstat appends (path, strerror); a non-directory goes to _scanfile; subjects gain exactly that path when it is selected |
| Manager.FileManager.VisitFile | bakonf.py:461-463 | a scannable listed path goes to `_scanfile`: it ends up scanned, subjects gain exactly that path when it was not scanned before and needs backup, and errorlist is untouched |
| Manager.FileManager.HelperStart | bakonf.py:449 | dirname is appended to scanned and the selection invariant still holds |
| Manager.FileManager.HelperStep | bakonf.py:450-463 | one turn of the loop keeps the loop's account of errors, scanned paths and selected paths |
| Manager.FileManager.Helper | bakonf.py:442-464 | dirname is appended to scanned; errorlist gains exactly the listing's stat errors, in order; scanned gains exactly the listed non-excluded stat-able non-directories; subjects gain exactly those of them not scanned before that need backup |
| Manager.FileManager.ScanDir | bakonf.py:466-474 | the walk does nothing when the listing fails; otherwise the directory, its scannable entries and every listed directory it could list (excluded or not) end up scanned; the whole tree `os.path.walk` reaches is covered; every listed path anywhere in that tree that is scannable and needs backup is kept; every listed path anywhere in that tree that is not excluded and whose lstat fails has its (path, strerror) entry in errorlist; everything selected or recorded lies below the directory, and what is selected is a scannable (stat-able, non-directory, not excluded) listed path of the walk that was not scanned before the call |
| Manager.FileManager.WalkStep | bakonf.py:466-474 | one listed path of the walk: descend when lstat says directory, keeping the walk's account |
| Manager.FileManager.Descend | bakonf.py:466-474 | the descent into a listed directory walks its whole tree and keeps the walk's account |
| Manager.FileManager.NoDescent | bakonf.py:466-474 | a listed path lstat does not call a directory is not descended into and the account still holds |
| Manager.SelectsScan | bakonf.py:476-487 | scanning one more path keeps that property when the path is kept whenever it needs backup |
| Manager.CoveredNoListing | bakonf.py:466-474 | a walk whose top cannot be listed reaches nothing to visit |
| Manager.CoveredFromChildren | bakonf.py:442-474 | a walk is covered once its top is visited and the walk of each listed directory is covered |
| Manager.ErrorSet | bakonf.py:458 | the set of entries of an errorlist holds exactly its entries |
| Manager.ErrorSetPrefix | bakonf.py:458 | errorlist only grows by appending, so its set of entries only grows |
| Manager.StatErrorsRecorded | bakonf.py:450-460 | after `_helper` appends its entries, every non-excluded listed path whose lstat fails has its (path, strerror) entry in errorlist |
| Manager.WalkRecords | bakonf.py:442-474 | when a walk is covered, every listed path of the walked tree that is not excluded and whose lstat fails has its (path, strerror) entry recorded |
| Manager.WalkedStart | bakonf.py:449-464 | right after `_helper` ran on the listing of top, top and its scannable listed paths are scanned, what was kept or recorded lies below top, the listing's failing lstats are recorded, and the walk is open only at top |
| Manager.WalkedDescend | bakonf.py:466-474 | a complete walk of listed directory i advances the walk of its parent by one listed path, keeping everything the walk has established |
| Manager.WalkedEnd | bakonf.py:466-474 | once every listed path was considered, the walk of top is covered and closed, every scannable path of its tree that needs backup is kept and every failing lstat in it is recorded |
| Manager.WalkSelects | bakonf.py:442-487 | when a walk is covered and every scanned selectable path is kept, every listed path of the walked tree that is scannable and needs backup is kept |
| Manager.WalkCoveredStep | bakonf.py:466-474 | after one more listed path, the listed directories considered so far stay covered and every other directory scanned since the start, except the top, is covered |
| Manager.SourcesCoveredStep | bakonf.py:496-506 | after one more include entry, the directory entries dealt with so far, not excluded and not scanned before, stay covered |
| Manager.SourcesCoveredScan | bakonf.py:504-505 | handing a non-directory entry to `_scanfile` keeps that account |
| Manager.SourcesSelect | bakonf.py:496-506 | when those walks are covered and every scanned selectable path is kept, every selectable path in any of them is kept and every failing lstat of a non-excluded path in any of them is recorded |
| Manager.SourcedWalk | bakonf.py:502-503 | walking include entry i, a directory, completely advances checksources by one entry, keeping what it has established |
| Manager.InTreeDescent | bakonf.py:466-474 | a path listed by the walk of a listed directory is listed by the walk of its parent, as `os.path.walk` recurses |
| Manager.PicksInTree | bakonf.py:449-464 | what `_helper` selects on a listing is scannable, was not scanned before, and is listed by the walk |
| Manager.AddedInTreeDescent | bakonf.py:466-474 | what the walk of a listed directory selects, not scanned when that walk started, counts for the walk of the parent |
| Manager.AddedFromSourcesWalk | bakonf.py:502-503 | what the walk of include entry i selects is what checksources may select |
| Manager.AddedFromSourcesScan | bakonf.py:504-505 | selecting include entry i itself, unscanned and scannable, is what checksources may select |
| Manager.SourcedScan | bakonf.py:504-505 | handing include entry i, not a directory, to `_scanfile` advances checksources by one entry |
| Manager.FileManager.SourceStep | bakonf.py:499-505 | one include entry: skipped when excluded or scanned; a failing lstat escapes with its strerror and changes nothing; otherwise walked or scanned |
| Manager.FileManager.WalkSource | bakonf.py:502-503 | the directory branch of checksources deals with its entry and keeps the account |
| Manager.FileManager.ScanSource | bakonf.py:504-505 | the other branch of checksources deals with its entry and keeps the account |
| Manager.FileManager.CheckSources | bakonf.py:496-506 | without an escaping OSError every include entry is excluded, scanned, or a directory whose listing failed; the tree of every non-excluded directory entry not scanned before is covered, every path in it that is scannable and needs backup is kept, every path in it that is not excluded and whose lstat fails has its (path, strerror) entry in errorlist, and every include entry that is scannable and needs backup; with an OSError, it comes from the first non-excluded unscanned entry whose lstat fails; everything selected or recorded is an include entry or below one, and what is selected is scannable, was not scanned before the call, and is an include entry or a listed path of the walk of one; the database file is never selected |
| Manager.FileManager.NotifyWritten | bakonf.py:527-539 | at level 0, for a selected path, the store gains the record of its physical state under its key (TypeError when there is none); otherwise the store is unchanged |

## Findings

| source | as written | input that shows it | evidently intended | confidence | as-written member | corrected member |
|---|---|---|---|---|---|---|
| bakonf.py:516-519 (with 672) | `addparents` recurses on `os.path.dirname(item)` until that is "/"; `abspath` keeps a leading "//" and `dirname("//")` is "//" | an include entry "//etc/passwd": its ancestors are "//", "//", … and the recursion only ends at Python's recursion limit | parent insertion stops at "/" for every absolute include entry | not executed | Paths.DoubleSlashStuck | Paths.ReachesRoot |
| bakonf.py:184-189 (with 131-132 and 285-286) | two symbolic links compare `self.user == other.user` and the groups, but a state read from disk holds the int `st_uid`/`st_gid` and a decoded one the str from the record | a symbolic link left unchanged since the level-0 run, examined at level 1: `1000 == "1000"` is false | as the `__eq__` docstring says, an unchanged link compares equal (same target, user/group, permissions) and is not archived again | not executed | Subjects.SymlinkAlwaysReselected | Subjects.UnchangedSymlinkNotReselected |

## Left out

- Real I/O. The disk is a map from path to what lstat, readlink, reading
  and listing return. The database is a map. The clock reading is a
  parameter. `close` (bakonf.py:541-544), which only flushes the database,
  is not modelled.
- Logging. The error and warning messages are not modelled. The staleness
  warning is the `stale` flag of `Store.Opened`.
- Regular expressions. A configured exclusion pattern is taken as a
  literal prefix, as `re.match` anchors at the start. Metacharacters are not
  interpreted. The pattern for the database path matches that path exactly.
- `os.path.abspath` of the database path and of relative include entries.
  Include entries are taken to be absolute paths that do not start with
  "//" (`Paths.Canonical` makes any absolute path such a path; see
  Findings for an entry that does start with "//").
- MD5 and SHA-1 internals. They are functions from bytes to hex text, and
  `HasherOk` states their output lengths.
- Store.OpenStore: the clock is whole seconds, and level 0 stores the
  decimal text of that integer. The program stores `str(time.time())`,
  which has a fractional part. The stored date is compared as the exact
  decimal it spells, not as the nearest double: rounding and overflow
  (`float("1e400")` is `inf` in Python) are not modelled.
- PyText.ParseFloat: reads decimal text as an exact rational number, so
  it does not round to the nearest double and a huge exponent gives a
  finite value where Python gives an infinity.
- Disk.TruncSeconds: the mtime is exact integer nanoseconds. Python reads
  `st_mtime` as a double first, which can round up across a whole second
  (1700000000 s plus 999999999 ns reads as 1700000001.0), so `%i` can
  differ from the truncation modelled here.
- Manager.FileManager.ScanDir: does not restate, for the paths selected
  deeper in the walk, that each kept SubjectFile is the one `_findfile`
  built. `Helper`, `Visit` and `ScanFile` state it for each listing.
- Manager.FileManager.CheckSources: an include entry that was scanned
  before `checksources` started, by an earlier call, is not walked again,
  so its tree is covered only as far as that earlier call covered it.
- The digest cache that `needsbackup` and `serialize` fill as a side
  effect is not carried back into the kept SubjectFile. `GetMd5`/`GetSha`
  show that a cached digest answers the same as a fresh one, so the
  decisions are unaffected.
- The OSError of `checksources` carries the entry and strerror
  (`CheckSources` returns them). The exception's other attributes are
  not modelled.
- The `BackupManager`, the archive writer, the configuration parser and the
  command line (the rest of bakonf.py) are not part of this model.

=== FILE: disk.dfy ===
/**
 * The part of the operating system the engine observes: lstat results,
 * symbolic link targets, file contents, directory listings, the stat mode
 * bits, and the two digest functions.  The disk is a finite map from path to
 * what lstat reports for that path; a path absent from the map does not exist.
 */
module Disk {
  import opened Wrappers
  import opened Paths

  newtype byte = x: int | 0 <= x < 256

  /** What lstat (and the calls that follow it) see for one existing entry. */
  datatype Inode = Inode(
    mode: nat,                     // st_mode, type and permission bits
    uid: nat,                      // st_uid
    gid: nat,                      // st_gid
    size: nat,                     // st_size
    mtimeNs: int,                  // st_mtime, in nanoseconds
    target: Option<string>,        // what os.readlink returns; None: it raises
    contents: Option<seq<byte>>,   // what reading the file yields; None: IOError
    listing: Option<seq<string>>)  // what os.listdir returns; None: it raises

  datatype Entry =
    | Present(inode: Inode)
    | Unstattable(reason: string)  // lstat raises with this strerror

  type FileSystem = map<Path, Entry>

  const ENOENT_TEXT: string := "No such file or directory"

  /** Size of one read in the digest loop (fh.read(65535)). */
  const CHUNK: nat := 65535

  const NS_PER_SECOND: nat := 1_000_000_000

  // The file-type field and the types the engine distinguishes (stat.S_IFMT).
  const S_IFMT: int := 0xF000
  const S_IFDIR: int := 0x4000
  const S_IFREG: int := 0x8000
  const S_IFLNK: int := 0xA000

  /**
   * mode & S_IFMT.  Dafny's / and % round toward minus infinity for a
   * positive divisor, which is what Python's & does on a negative int
   * (infinite two's complement), so this also holds for decoded modes.
   */
  function FileType(mode: int): (t: int)
    ensures 0 <= t <= S_IFMT && t % 0x1000 == 0
  {
    (mode / 0x1000) % 16 * 0x1000
  }

  predicate IsLnk(mode: int) { FileType(mode) == S_IFLNK }   // stat.S_ISLNK
  predicate IsReg(mode: int) { FileType(mode) == S_IFREG }   // stat.S_ISREG
  predicate IsDir(mode: int) { FileType(mode) == S_IFDIR }   // stat.S_ISDIR

  /** stat.S_IMODE: mode & 0o7777. */
  function PermBits(mode: int): (b: int)
    ensures 0 <= b < 0x1000
  {
    mode % 0x1000
  }

  /** int(t) on a float number of seconds: truncation toward zero. */
  function TruncSeconds(ns: int): (s: int)
    ensures ns >= 0 ==> s >= 0 && s * NS_PER_SECOND <= ns < (s + 1) * NS_PER_SECOND
    ensures ns < 0 ==> s <= 0 && (s - 1) * NS_PER_SECOND < ns <= s * NS_PER_SECOND
  {
    if ns >= 0 then ns / NS_PER_SECOND else -((-ns) / NS_PER_SECOND)
  }

  /** os.lstat: the inode, or the strerror of the OSError it raises. */
  function Lstat(fs: FileSystem, p: Path): (r: Result<Inode, string>)
    ensures p !in fs ==> r == Failure(ENOENT_TEXT)
  {
    if p !in fs then Failure(ENOENT_TEXT)
    else match fs[p]
      case Present(inode) => Success(inode)
      case Unstattable(reason) => Failure(reason)
  }

  /** What opening and reading the file at p yields; None: IOError. */
  function Contents(fs: FileSystem, p: Path): Option<seq<byte>>
  {
    match Lstat(fs, p)
    case Success(inode) => inode.contents
    case Failure(_) => None
  }

  /** os.listdir(p); None: it raised. */
  function Listing(fs: FileSystem, p: Path): Option<seq<string>>
  {
    match Lstat(fs, p)
    case Success(inode) => inode.listing
    case Failure(_) => None
  }

  /** The one thing every real directory listing guarantees: its names are plain names. */
  ghost predicate WellFormed(fs: FileSystem)
  {
    forall p :: p in fs && fs[p].Present? && fs[p].inode.listing.Some? ==>
      forall i :: 0 <= i < |fs[p].inode.listing.value| ==> ValidName(fs[p].inode.listing.value[i])
  }

  /** The chunk fh.read(CHUNK) returns once pos bytes have been read. */
  function ReadChunk(data: seq<byte>, pos: nat): (chunk: seq<byte>)
    requires pos <= |data|
    ensures chunk == [] <==> pos == |data|
    ensures |chunk| <= CHUNK && pos + |chunk| <= |data| && chunk == data[pos..pos + |chunk|]
  {
    if |data| - pos <= CHUNK then data[pos..] else data[pos..pos + CHUNK]
  }

  /**
   * The two digests, MD5 and SHA-1, as functions from a file's contents to
   * their hexdigest.  Their internals are not part of the model.
   */
  datatype Hasher = Hasher(md5: seq<byte> -> string, sha: seq<byte> -> string)

  predicate IsHexDigit(c: char) { '0' <= c <= '9' || 'a' <= c <= 'f' }

  predicate IsHex(s: string) { forall i :: 0 <= i < |s| ==> IsHexDigit(s[i]) }

  /** hexdigest() of MD5 is 32 hex digits and that of SHA-1 is 40. */
  ghost predicate HasherOk(h: Hasher)
  {
    forall data :: |h.md5(data)| == 32 && |h.sha(data)| == 40 && IsHex(h.md5(data)) && IsHex(h.sha(data))
  }
}

=== FILE: exclusion.dfy ===
/**
 * Exclusion patterns.  A configured pattern is matched with re.match, which
 * anchors at the start of the path only, so it acts on every path it is a
 * prefix of; the pattern added for the database path is anchored at both
 * ends and excludes that one path.
 */
module Exclusion {
  import opened Paths

  datatype Pattern =
    | Prefix(text: string)   // a configured pattern, taken as literal text
    | Whole(text: string)    // "^%s$" % database path

  predicate Matches(pat: Pattern, path: Path)
  {
    match pat
    case Prefix(t) => StartsWith(path, t)
    case Whole(t) => path == t
  }

  /** _isexcluded: some pattern, tried in order, matches the path. */
  function IsExcluded(path: Path, patterns: seq<Pattern>): (r: bool)
    ensures r <==> exists i :: 0 <= i < |patterns| && Matches(patterns[i], path)
  {
    if patterns == [] then false
    else if Matches(patterns[0], path) then true
    else
      var r := IsExcluded(path, patterns[1..]);
      assert r ==> exists i :: 0 <= i < |patterns| && Matches(patterns[i], path) by {
        if r {
          var i :| 0 <= i < |patterns[1..]| && Matches(patterns[1..][i], path);
          assert Matches(patterns[i + 1], path);
        }
      }
      r
  }

  /** The pattern list FileManager builds: the configured ones, then the database path. */
  function PatternList(excludes: seq<string>, dbpath: Path): (pats: seq<Pattern>)
    ensures |pats| == |excludes| + 1 && pats[|excludes|] == Whole(dbpath)
    ensures IsExcluded(dbpath, pats)
  {
    var pats := seq(|excludes|, i requires 0 <= i < |excludes| => Prefix(excludes[i])) + [Whole(dbpath)];
    assert Matches(pats[|excludes|], dbpath);
    pats
  }

  /** A path under a prefix-excluded path is excluded too. */
  lemma PrefixExclusionInherited(patterns: seq<Pattern>, ancestor: Path, path: Path)
    requires StartsWith(path, ancestor)
    requires exists i :: 0 <= i < |patterns| && patterns[i].Prefix? && Matches(patterns[i], ancestor)
    ensures IsExcluded(path, patterns)
  {
    var i :| 0 <= i < |patterns| && patterns[i].Prefix? && Matches(patterns[i], ancestor);
    StartsWithTransitive(path, ancestor, patterns[i].text);
    assert Matches(patterns[i], path);
  }
}

=== FILE: file_state.dfy ===
/**
 * FileState: the state of one file, either read from the disk ("physical")
 * or decoded from a record of the fingerprint database ("virtual"), and the
 * operations on it: reading it from disk, the lazily computed digests, the
 * comparison rule, and the NUL-separated record format.
 */
module FileStates {
  import opened Wrappers
  import opened PyText
  import opened Paths
  import opened Disk

  /** The attributes _readdisk takes from lstat. */
  datatype Stat = Stat(mode: nat, uid: nat, gid: nat, size: nat, mtimeNs: int)

  /** A value as Python's == sees it: an int is never equal to a str. */
  datatype PyValue = PyInt(i: int) | PyStr(s: string)

  /**
   * Forced:   a physical state whose reading failed (force = 1); when lstat
   *           succeeded and only readlink failed, the stat part is kept.
   * Physical: a physical state read successfully; cache holds the (md5, sha)
   *           pair once it has been computed.
   * Virtual:  a state decoded from a record; user and group stay strings.
   */
  datatype FileState =
    | Forced(name: Path, partial: Option<Stat>)
    | Physical(name: Path, st: Stat, lnkdest: string, cache: Option<(string, string)>)
    | Virtual(name: Path, mode: int, user: string, group: string, size: int, mtime: int,
              lnkdest: string, storedMd5: string, storedSha: string)

  datatype DecodeError =
    | FieldCount(found: nat)      // the record does not split into 9 fields
    | NotAnInteger(field: string) // mode, size or mtime is not an integer
    | BadHashLength               // "Invalid hash length!"

  predicate NoNul(s: string) { NUL !in s }

  predicate HashLengthsOk(md5: string, sha: string)
  {
    (|md5| == 0 || |md5| == 32) && (|sha| == 0 || |sha| == 40)
  }

  /** Digests a state can hold: the lengths the decoder accepts, and no NUL. */
  predicate WellFormedState(s: FileState)
  {
    match s
    case Forced(_, _) => true
    case Physical(_, _, _, cache) =>
      cache.Some? ==> HashLengthsOk(cache.value.0, cache.value.1) && NoNul(cache.value.0) && NoNul(cache.value.1)
    case Virtual(_, _, _, _, _, _, _, md5, sha) => HashLengthsOk(md5, sha) && NoNul(md5) && NoNul(sha)
  }

  function StatOf(inode: Inode): Stat
  {
    Stat(inode.mode, inode.uid, inode.gid, inode.size, inode.mtimeNs)
  }

  /**
   * _readdisk: lstat the path; for a symbolic link also read its target.
   * Any failure gives a forced state rather than an error.
   */
  function ReadDisk(name: Path, fs: FileSystem): (s: FileState)
    ensures !s.Virtual? && s.name == name && WellFormedState(s)
    ensures s.Physical? ==> s.cache.None?
    ensures Lstat(fs, name).Failure? ==> s == Forced(name, None)
    ensures Lstat(fs, name).Success? ==>
              var inode := Lstat(fs, name).value;
              if IsLnk(inode.mode) && inode.target.None? then s == Forced(name, Some(StatOf(inode)))
              else s.Physical? && s.st == StatOf(inode) &&
                   s.lnkdest == (if IsLnk(inode.mode) then inode.target.value else "")
  {
    match Lstat(fs, name)
    case Failure(_) => Forced(name, None)
    case Success(inode) =>
      if !IsLnk(inode.mode) then Physical(name, StatOf(inode), "", None)
      else if inode.target.Some? then Physical(name, StatOf(inode), inode.target.value, None)
      else Forced(name, Some(StatOf(inode)))
  }

  function Mode(s: FileState): int
    requires !s.Forced?
  {
    if s.Physical? then s.st.mode else s.mode
  }

  function Size(s: FileState): int
    requires !s.Forced?
  {
    if s.Physical? then s.st.size else s.size
  }

  /** self.user: an int when read from disk, a str when decoded. */
  function User(s: FileState): PyValue
    requires !s.Forced?
  {
    if s.Physical? then PyInt(s.st.uid) else PyStr(s.user)
  }

  /** self.group: an int when read from disk, a str when decoded. */
  function Group(s: FileState): PyValue
    requires !s.Forced?
  {
    if s.Physical? then PyInt(s.st.gid) else PyStr(s.group)
  }

  /** The (md5, sha) pair that reading and digesting the file at name gives. */
  function ComputeHashes(name: Path, h: Hasher, fs: FileSystem): (string, string)
  {
    match Contents(fs, name)
    case None => ("", "")
    case Some(data) => (h.md5(data), h.sha(data))
  }

  /**
   * The pair (getmd5(), getsha()) returns: the stored digests of a virtual
   * state, the cached ones of a physical state, the digests of the contents
   * of an uncached regular file, and "" for everything else.
   */
  function HashPair(s: FileState, h: Hasher, fs: FileSystem): (r: (string, string))
    ensures HasherOk(h) && WellFormedState(s) ==>
              HashLengthsOk(r.0, r.1) && NoNul(r.0) && NoNul(r.1)
    ensures s.Forced? || (s.Physical? && s.cache.None? && !IsReg(s.st.mode)) ==> r == ("", "")
  {
    match s
    case Forced(_, _) => ("", "")
    case Virtual(_, _, _, _, _, _, _, md5, sha) => (md5, sha)
    case Physical(name, st, _, cache) =>
      if cache.Some? then cache.value
      else if IsReg(st.mode) then
        var r := ComputeHashes(name, h, fs);
        assert HasherOk(h) ==> HashLengthsOk(r.0, r.1) && NoNul(r.0) && NoNul(r.1) by {
          if HasherOk(h) && Contents(fs, name).Some? {
            var data := Contents(fs, name).value;
            assert |h.md5(data)| == 32 && IsHex(h.md5(data)) && |h.sha(data)| == 40 && IsHex(h.sha(data));
          }
        }
        r
      else ("", "")
  }

  /**
   * __eq__ between two states.  None stands for the assertion failure when
   * both are physical or both are virtual.  A forced state is equal to
   * nothing; symbolic links compare target, user, group and permission bits;
   * regular files compare size and both digests; any other pairing of types
   * is unequal.
   */
  function Equals(a: FileState, b: FileState, h: Hasher, fs: FileSystem): (r: Option<bool>)
    ensures r.None? <==> a.Virtual? == b.Virtual?
    ensures r.Some? && (a.Forced? || b.Forced?) ==> r == Some(false)
  {
    if a.Virtual? == b.Virtual? then None
    else if a.Forced? || b.Forced? then Some(false)
    else if IsLnk(Mode(a)) && IsLnk(Mode(b)) then
      var sameUser, sameGroup := User(a) == User(b), Group(a) == Group(b);
      var samePerms := PermBits(Mode(a)) == PermBits(Mode(b));
      Some(a.lnkdest == b.lnkdest && sameUser && sameGroup && samePerms)
    else if IsReg(Mode(a)) && IsReg(Mode(b)) then
      Some(Size(a) == Size(b) && HashPair(a, h, fs).0 == HashPair(b, h, fs).0 &&
           HashPair(a, h, fs).1 == HashPair(b, h, fs).1)
    else Some(false)
  }

  /** __ne__: the negation of __eq__, failing where it fails. */
  function NotEquals(a: FileState, b: FileState, h: Hasher, fs: FileSystem): (r: Option<bool>)
  {
    match Equals(a, b, h, fs)
    case None => None
    case Some(eq) => Some(!eq)
  }

  /** The user as the text a record holds: the decimal id for a state read from disk. */
  function UserText(s: FileState): string
    requires !s.Forced?
  {
    if s.Physical? then IntStr(s.st.uid) else s.user
  }

  /** The group as the text a record holds: the decimal id for a state read from disk. */
  function GroupText(s: FileState): string
    requires !s.Forced?
  {
    if s.Physical? then IntStr(s.st.gid) else s.group
  }

  /**
   * The comparison the __eq__ docstring describes: as Equals, except that
   * two symbolic links compare user and group as the text a record holds,
   * so a decoded user "1000" matches uid 1000 read from disk.  It differs
   * from Equals only on pairs of symbolic links.
   */
  function EqualsIntended(a: FileState, b: FileState, h: Hasher, fs: FileSystem): (r: Option<bool>)
    ensures r.None? <==> a.Virtual? == b.Virtual?
    ensures (a.Forced? || b.Forced? || !IsLnk(Mode(a)) || !IsLnk(Mode(b))) ==> r == Equals(a, b, h, fs)
    ensures r.Some? && a.Physical? && b.Virtual? && IsLnk(Mode(a)) && IsLnk(Mode(b)) ==>
              (r.value <==> a.lnkdest == b.lnkdest && IntStr(a.st.uid) == b.user && IntStr(a.st.gid) == b.group &&
                            PermBits(a.st.mode) == PermBits(b.mode))
  {
    if a.Virtual? == b.Virtual? then None
    else if a.Forced? || b.Forced? then Some(false)
    else if IsLnk(Mode(a)) && IsLnk(Mode(b)) then
      var sameUser, sameGroup := UserText(a) == UserText(b), GroupText(a) == GroupText(b);
      var samePerms := PermBits(Mode(a)) == PermBits(Mode(b));
      Some(a.lnkdest == b.lnkdest && sameUser && sameGroup && samePerms)
    else if IsReg(Mode(a)) && IsReg(Mode(b)) then
      Some(Size(a) == Size(b) && HashPair(a, h, fs).0 == HashPair(b, h, fs).0 &&
           HashPair(a, h, fs).1 == HashPair(b, h, fs).1)
    else Some(false)
  }

  /** The six leading record fields of a state read by lstat. */
  function StatFields(name: Path, st: Stat): seq<string>
  {
    [name, IntStr(st.mode), IntStr(st.uid), IntStr(st.gid), IntStr(st.size), IntStr(TruncSeconds(st.mtimeNs))]
  }

  /**
   * serialize: the nine fields name, mode, user, group, size, mtime, link
   * target, md5 and sha joined by NUL.  None stands for the TypeError raised
   * for a state whose lstat failed (its mode is None); a state whose readlink
   * failed writes "None" as its link target.
   */
  function Serialize(s: FileState, h: Hasher, fs: FileSystem): (r: Option<string>)
    ensures r.None? <==> s == Forced(s.name, None)
  {
    match s
    case Forced(name, partial) =>
      if partial.None? then None
      else Some(JoinWith(StatFields(name, partial.value) + ["None", "", ""], NUL))
    case Physical(name, st, lnkdest, _) =>
      var hashes := HashPair(s, h, fs);
      Some(JoinWith(StatFields(name, st) + [lnkdest, hashes.0, hashes.1], NUL))
    case Virtual(name, mode, user, group, size, mtime, lnkdest, md5, sha) =>
      Some(JoinWith([name, IntStr(mode), user, group, IntStr(size), IntStr(mtime), lnkdest, md5, sha], NUL))
  }

  /**
   * unserialize: split on NUL into exactly nine fields, read mode and mtime
   * with int() and size with long() (which also takes an L suffix) and
   * check the digest lengths; user and group are kept as the strings found.
   */
  function Unserialize(text: string): (r: Result<FileState, DecodeError>)
    ensures r.Success? ==> r.value.Virtual? && WellFormedState(r.value)
    ensures r.Success? <==>
              var f := Split(text, NUL);
              |f| == 9 && ParseInt(f[1]).Some? && ParseLong(f[4]).Some? && ParseInt(f[5]).Some? &&
              HashLengthsOk(f[7], f[8])
  {
    var f := Split(text, NUL);
    if |f| != 9 then Failure(FieldCount(|f|))
    else
      SplitFieldsNoNul(text);
      var mode, size, mtime := ParseInt(f[1]), ParseLong(f[4]), ParseInt(f[5]);
      if mode.None? then Failure(NotAnInteger(f[1]))
      else if size.None? then Failure(NotAnInteger(f[4]))
      else if mtime.None? then Failure(NotAnInteger(f[5]))
      else if !HashLengthsOk(f[7], f[8]) then Failure(BadHashLength)
      else Success(Virtual(f[0], mode.value, f[2], f[3], size.value, mtime.value, f[6], f[7], f[8]))
  }

  // ---------------------------------------------------------------------
  // The lazily filled digest cache

  /**
   * _readhashes: for a readable regular file, feed its contents to both
   * digests in chunks of CHUNK bytes and cache the hexdigests; cache "" for
   * any other physical state and when reading fails.  A virtual state is
   * returned as it is; a forced state has no cache and reports "" anyway.
   */
  method ReadHashes(s: FileState, h: Hasher, fs: FileSystem) returns (r: FileState)
    ensures !s.Physical? ==> r == s
    ensures s.Physical? ==> r == s.(cache := Some(if IsReg(s.st.mode) then ComputeHashes(s.name, h, fs) else ("", "")))
  {
    if !s.Physical? {
      return s;
    }
    if !IsReg(s.st.mode) {
      return s.(cache := Some(("", "")));
    }
    match Contents(fs, s.name)
    case None =>
      r := s.(cache := Some(("", "")));
    case Some(data) =>
      // The state of each digest object is modelled by the bytes fed to it.
      var md5Fed: seq<byte> := [];
      var shaFed: seq<byte> := [];
      var pos := 0;
      var chunk := ReadChunk(data, pos);
      while chunk != []
        invariant pos <= |data| && chunk == ReadChunk(data, pos)
        invariant md5Fed == data[..pos] && shaFed == data[..pos]
        decreases |data| - pos
      {
        md5Fed := md5Fed + chunk;
        shaFed := shaFed + chunk;
        pos := pos + |chunk|;
        chunk := ReadChunk(data, pos);
      }
      assert md5Fed == data && shaFed == data;
      r := s.(cache := Some((h.md5(md5Fed), h.sha(shaFed))));
  }

  /**
   * getmd5: return the cached digest, or compute both digests now when the
   * state is an uncached readable regular file.  Whatever the disk holds at
   * any later call, the state returned answers with the same digest.
   */
  method GetMd5(s: FileState, h: Hasher, fs: FileSystem) returns (value: string, s': FileState)
    ensures value == HashPair(s, h, fs).0
    ensures s' == if s.Physical? && s.cache.None? && IsReg(s.st.mode)
                  then s.(cache := Some(HashPair(s, h, fs))) else s
    ensures forall later :: HashPair(s', h, later).0 == value
  {
    s' := s;
    if s.Physical? && s.cache.None? {
      if IsReg(s.st.mode) {
        s' := ReadHashes(s, h, fs);
        value := s'.cache.value.0;
      } else {
        value := "";
      }
    } else if s.Physical? {
      value := s.cache.value.0;
    } else if s.Virtual? {
      value := s.storedMd5;
    } else {
      value := "";
    }
  }

  /** getsha: the SHA-1 counterpart of GetMd5. */
  method GetSha(s: FileState, h: Hasher, fs: FileSystem) returns (value: string, s': FileState)
    ensures value == HashPair(s, h, fs).1
    ensures s' == if s.Physical? && s.cache.None? && IsReg(s.st.mode)
                  then s.(cache := Some(HashPair(s, h, fs))) else s
    ensures forall later :: HashPair(s', h, later).1 == value
  {
    s' := s;
    if s.Physical? && s.cache.None? {
      if IsReg(s.st.mode) {
        s' := ReadHashes(s, h, fs);
        value := s'.cache.value.1;
      } else {
        value := "";
      }
    } else if s.Physical? {
      value := s.cache.value.1;
    } else if s.Virtual? {
      value := s.storedSha;
    } else {
      value := "";
    }
  }

  // ---------------------------------------------------------------------
  // Lemmas

  lemma {:induction false} SplitFieldsNoNul(text: string)
    ensures forall i :: 0 <= i < |Split(text, NUL)| ==> NoNul(Split(text, NUL)[i])
    decreases |text|
  {
    var k := IndexOf(text, NUL);
    if k >= 0 {
      SplitFieldsNoNul(text[k + 1..]);
    }
  }

  lemma IntStrNoNul(n: int)
    ensures NoNul(IntStr(n))
  {
    var s := IntStr(n);
    assert forall i :: 0 <= i < |s| ==> s[i] == '-' || IsDigit(s[i]);
  }

  /**
   * Round trip of a physical state: decoding what serialize writes gives a
   * virtual state with the same name, mode, size, link target and digests,
   * the mtime truncated to whole seconds, and user and group as the decimal
   * strings of their ids.
   */
  lemma PhysicalRoundTrip(s: FileState, h: Hasher, fs: FileSystem)
    requires s.Physical? && NoNul(s.name) && NoNul(s.lnkdest)
    requires HasherOk(h) && WellFormedState(s)
    ensures Serialize(s, h, fs).Some?
    ensures Unserialize(Serialize(s, h, fs).value) ==
              Success(Virtual(s.name, s.st.mode, IntStr(s.st.uid), IntStr(s.st.gid), s.st.size,
                              TruncSeconds(s.st.mtimeNs), s.lnkdest,
                              HashPair(s, h, fs).0, HashPair(s, h, fs).1))
  {
    var hashes := HashPair(s, h, fs);
    StatRecordRoundTrip(s.name, s.st, s.lnkdest, hashes.0, hashes.1);
  }

  /**
   * Round trip of a state whose readlink failed: the record decodes, with
   * the text "None" as link target and empty digests.
   */
  lemma ForcedRoundTrip(s: FileState, h: Hasher, fs: FileSystem)
    requires s.Forced? && s.partial.Some? && NoNul(s.name)
    ensures Serialize(s, h, fs).Some?
    ensures Unserialize(Serialize(s, h, fs).value) ==
              Success(Virtual(s.name, s.partial.value.mode, IntStr(s.partial.value.uid),
                              IntStr(s.partial.value.gid), s.partial.value.size,
                              TruncSeconds(s.partial.value.mtimeNs), "None", "", ""))
  {
    StatRecordRoundTrip(s.name, s.partial.value, "None", "", "");
  }

  lemma StatRecordRoundTrip(name: Path, st: Stat, lnkdest: string, md5: string, sha: string)
    requires NoNul(name) && NoNul(lnkdest) && NoNul(md5) && NoNul(sha) && HashLengthsOk(md5, sha)
    ensures Unserialize(JoinWith(StatFields(name, st) + [lnkdest, md5, sha], NUL)) ==
              Success(Virtual(name, st.mode, IntStr(st.uid), IntStr(st.gid), st.size,
                              TruncSeconds(st.mtimeNs), lnkdest, md5, sha))
  {
    var mtime := TruncSeconds(st.mtimeNs);
    var fields := [name, IntStr(st.mode), IntStr(st.uid), IntStr(st.gid), IntStr(st.size), IntStr(mtime),
                   lnkdest, md5, sha];
    assert StatFields(name, st) + [lnkdest, md5, sha] == fields;
    IntStrNoNul(st.mode);
    IntStrNoNul(st.uid);
    IntStrNoNul(st.gid);
    IntStrNoNul(st.size);
    IntStrNoNul(mtime);
    SplitJoin(fields, NUL);
    IntStrRoundTrip(st.mode);
    LongSuffix(st.size);
    IntStrRoundTrip(mtime);
  }

  /** Round trip of a virtual state: decoding its record gives it back. */
  lemma VirtualRoundTrip(v: FileState)
    requires v.Virtual? && WellFormedState(v)
    requires NoNul(v.name) && NoNul(v.user) && NoNul(v.group) && NoNul(v.lnkdest)
    ensures Serialize(v, Hasher(_ => "", _ => ""), map[]).Some?
    ensures forall h, fs :: Unserialize(Serialize(v, h, fs).value) == Success(v)
  {
    var fields := [v.name, IntStr(v.mode), v.user, v.group, IntStr(v.size), IntStr(v.mtime),
                   v.lnkdest, v.storedMd5, v.storedSha];
    IntStrNoNul(v.mode);
    IntStrNoNul(v.size);
    IntStrNoNul(v.mtime);
    SplitJoin(fields, NUL);
    IntStrRoundTrip(v.mode);
    LongSuffix(v.size);
    IntStrRoundTrip(v.mtime);
  }

  /**
   * The comparison rule between a decoded and a freshly read state: they are
   * equal exactly when the physical one was read successfully, both are
   * regular files, and size and both digests agree.  In particular a
   * symbolic link is never equal to its record, because the decoded user is
   * a str and the physical one an int.
   */
  lemma NotEqualsCharacterization(v: FileState, p: FileState, h: Hasher, fs: FileSystem)
    requires v.Virtual? && !p.Virtual?
    ensures NotEquals(v, p, h, fs) == NotEquals(p, v, h, fs)
    ensures NotEquals(v, p, h, fs) ==
              Some(!(p.Physical? && IsReg(v.mode) && IsReg(p.st.mode) && v.size == p.st.size &&
                     HashPair(v, h, fs) == HashPair(p, h, fs)))
  {
    EqualsCharacterization(v, p, h, fs);
  }

  lemma EqualsCharacterization(v: FileState, p: FileState, h: Hasher, fs: FileSystem)
    requires v.Virtual? && !p.Virtual?
    ensures Equals(v, p, h, fs) == Equals(p, v, h, fs)
    ensures Equals(v, p, h, fs) ==
              Some(p.Physical? && IsReg(v.mode) && IsReg(p.st.mode) && v.size == p.st.size &&
                   HashPair(v, h, fs) == HashPair(p, h, fs))
  {
    if p.Physical? && IsLnk(v.mode) && IsLnk(p.st.mode) {
      assert User(v) != User(p);
    }
  }
}

=== FILE: manager.dfy ===
/**
 * FileManager: the selection engine.  It opens the fingerprint store, goes
 * through the include list (walking directories, skipping excluded paths,
 * recording paths that cannot be stat'ed), keeps a SubjectFile for every
 * path that needs backup, builds the ordered list of paths to archive, and
 * writes fingerprints back once the archive is on disk.
 *
 * The disk and the digest functions do not change during one run; they are
 * fixed fields of the manager.
 */
module Manager {
  import opened Wrappers
  import opened Paths
  import opened Disk
  import opened FileStates
  import opened Subjects
  import opened Store
  import opened Exclusion
  import opened Selection

  /** The paths os.path.join(dirname, name) for the names of one listing, in order. */
  function Children(dirname: Path, names: seq<string>): (c: seq<Path>)
    ensures |c| == |names|
  {
    seq(|names|, k requires 0 <= k < |names| => JoinPath(dirname, names[k]))
  }

  lemma ChildrenSnoc(dirname: Path, names: seq<string>, n: string)
    ensures Children(dirname, names + [n]) == Children(dirname, names) + [JoinPath(dirname, n)]
  {
  }

  /** p lies strictly below the directory top. */
  predicate Under(p: Path, top: Path)
  {
    StartsWith(p, top) && |p| > |top|
  }

  lemma UnderTransitive(a: Path, b: Path, c: Path)
    requires Under(a, b) && Under(b, c)
    ensures Under(a, c)
  {
    StartsWithTransitive(a, b, c);
  }

  /** Listed names are plain names, so every child path lies strictly below its directory. */
  lemma ChildrenBelow(dirname: Path, names: seq<string>)
    requires forall n :: n in names ==> ValidName(n)
    ensures forall p :: p in Children(dirname, names) ==> Under(p, dirname)
  {
    forall p | p in Children(dirname, names)
      ensures Under(p, dirname)
    {
      var k :| 0 <= k < |names| && Children(dirname, names)[k] == p;
      assert names[k] in names;
    }
  }

  /**
   * The entries _helper appends to errorlist for one listing, in order: one
   * (path, strerror) per name whose path is not excluded and whose lstat
   * fails.
   */
  function StatErrors(patterns: seq<Pattern>, fs: FileSystem, dirname: Path, names: seq<string>): (errs: seq<(Path, string)>)
    ensures forall k :: 0 <= k < |errs| ==>
              && errs[k].0 in Children(dirname, names)
              && !IsExcluded(errs[k].0, patterns)
              && Lstat(fs, errs[k].0) == Failure(errs[k].1)
    ensures forall n :: n in names && !IsExcluded(JoinPath(dirname, n), patterns) && Lstat(fs, JoinPath(dirname, n)).Failure? ==>
              (JoinPath(dirname, n), Lstat(fs, JoinPath(dirname, n)).error) in errs
  {
    if names == [] then []
    else
      var init := names[..|names| - 1];
      var p := JoinPath(dirname, names[|names| - 1]);
      var before := StatErrors(patterns, fs, dirname, init);
      assert Children(dirname, names) == Children(dirname, init) + [p] by {
        assert names == init + [names[|names| - 1]];
        ChildrenSnoc(dirname, init, names[|names| - 1]);
      }
      before + StatError(p, patterns, fs)
  }

  /** _dbget on a path's key: the stored record, if any. */
  function Lookup(db: Db, name: Path): Option<string>
  {
    if FileKey(name) in db then Some(db[FileKey(name)]) else None
  }

  /** A listed path _helper hands to _scanfile: not excluded, stat'able, not a directory. */
  predicate Scannable(p: Path, patterns: seq<Pattern>, fs: FileSystem)
  {
    !IsExcluded(p, patterns) && Lstat(fs, p).Success? && !IsDir(Lstat(fs, p).value.mode)
  }

  /**
   * The paths one _helper call selects: listed, handed to _scanfile, not
   * scanned before, and needing backup against the store's record.
   */
  function Picks(dirname: Path, names: seq<string>, scanned0: seq<Path>, patterns: seq<Pattern>,
                 fs: FileSystem, h: Hasher, db: Db): set<Path>
  {
    set p | p in Children(dirname, names) && Picked(p, scanned0, patterns, fs, h, db)
  }

  lemma PicksSnoc(dirname: Path, names: seq<string>, n: string, scanned0: seq<Path>, patterns: seq<Pattern>,
                  fs: FileSystem, h: Hasher, db: Db)
    ensures var p := JoinPath(dirname, n);
            Picks(dirname, names + [n], scanned0, patterns, fs, h, db) ==
              Picks(dirname, names, scanned0, patterns, fs, h, db) +
              (if Picked(p, scanned0, patterns, fs, h, db) then {p} else {})
  {
    ChildrenSnoc(dirname, names, n);
  }

  /** The errorlist entry _helper makes for one listed path: one when it is not excluded and lstat fails. */
  function StatError(p: Path, patterns: seq<Pattern>, fs: FileSystem): (e: seq<(Path, string)>)
    ensures |e| <= 1
    ensures e != [] <==> !IsExcluded(p, patterns) && Lstat(fs, p).Failure?
    ensures e != [] ==> e[0] == (p, Lstat(fs, p).error)
  {
    if !IsExcluded(p, patterns) && Lstat(fs, p).Failure? then [(p, Lstat(fs, p).error)] else []
  }

  /** needsbackup of the SubjectFile _findfile builds for p from the store db. */
  predicate Wanted(fs: FileSystem, h: Hasher, db: Db, p: Path)
  {
    NeedsBackup(MakeSubject(p, fs, Lookup(db, p)), h, fs)
  }

  /**
   * The record notifywritten stores for a regular file makes the next run
   * over the same disk leave the file out.
   */
  lemma WrittenRecordNotReselected(db: Db, sf: SubjectFile, fs: FileSystem, h: Hasher)
    requires Consistent(sf) && sf.physical == ReadDisk(sf.name, fs)
    requires Lstat(fs, sf.name).Success? && IsReg(Lstat(fs, sf.name).value.mode)
    requires NoNul(sf.name) && HasherOk(h)
    ensures SerializeSubject(sf, h, fs).Some?
    ensures !Wanted(fs, h, db[FileKey(sf.name) := SerializeSubject(sf, h, fs).value], sf.name)
  {
    UnchangedFileNotReselected(sf.name, fs, h);
    assert Lookup(db[FileKey(sf.name) := SerializeSubject(sf, h, fs).value], sf.name) == SerializeSubject(sf, h, fs);
  }

  /** Whether _scanfile, reached from _helper with this scanned list, selects p. */
  predicate Picked(p: Path, scanned0: seq<Path>, patterns: seq<Pattern>, fs: FileSystem, h: Hasher, db: Db)
  {
    p !in scanned0 && Scannable(p, patterns, fs) && Wanted(fs, h, db, p)
  }

  lemma StatErrorsSnoc(patterns: seq<Pattern>, fs: FileSystem, dirname: Path, names: seq<string>, n: string)
    ensures StatErrors(patterns, fs, dirname, names + [n]) ==
              StatErrors(patterns, fs, dirname, names) + StatError(JoinPath(dirname, n), patterns, fs)
  {
    assert (names + [n])[..|names|] == names;
  }

  /**
   * One name of the loop, for the selected paths: what _scanfile selects
   * against the scanned list of the moment is what the loop selects against
   * the scanned list it started from.
   */
  lemma PicksStep(keys0: set<Path>, keysMid: set<Path>, keysNew: set<Path>, s0: seq<Path>, sMid: seq<Path>,
                  dirname: Path, names: seq<string>, n: string, patterns: seq<Pattern>, fs: FileSystem,
                  h: Hasher, db: Db)
    requires keysMid == keys0 + Picks(dirname, names, s0, patterns, fs, h, db)
    requires Elems(sMid) == Elems(s0) + {dirname} + Scans(dirname, names, patterns, fs)
    requires JoinPath(dirname, n) != dirname
    requires keysNew == keysMid + if Picked(JoinPath(dirname, n), sMid, patterns, fs, h, db) then {JoinPath(dirname, n)} else {}
    ensures keysNew == keys0 + Picks(dirname, names + [n], s0, patterns, fs, h, db)
  {
    var p := JoinPath(dirname, n);
    PicksSnoc(dirname, names, n, s0, patterns, fs, h, db);
    var before := Picked(p, s0, patterns, fs, h, db);
    var now := Picked(p, sMid, patterns, fs, h, db);
    if now {
      assert p !in Elems(sMid);
      assert p !in Elems(s0);
      assert before;
    } else if before {
      assert p in Elems(sMid);
      assert p in Scans(dirname, names, patterns, fs);
      assert p in Children(dirname, names);
      assert p in Picks(dirname, names, s0, patterns, fs, h, db);
    }
  }

  lemma AppendAssoc<T>(a: seq<T>, b: seq<T>, c: seq<T>)
    ensures (a + b) + c == a + (b + c)
  {
  }

  lemma UnionAssoc<T>(a: set<T>, b: set<T>, c: set<T>)
    ensures (a + b) + c == a + (b + c)
  {
  }

  lemma PrefixMembers<T>(a: seq<T>, b: seq<T>)
    requires a <= b
    ensures forall x :: x in a ==> x in b
  {
    forall x | x in a
      ensures x in b
    {
      var k :| 0 <= k < |a| && a[k] == x;
      assert b[k] == x;
    }
  }

  lemma TakeSnoc<T>(s: seq<T>, i: nat)
    requires i < |s|
    ensures s[..i + 1] == s[..i] + [s[i]]
  {
  }

  /** The paths a list holds, as a set. */
  function Elems(s: seq<Path>): set<Path>
  {
    set x | x in s
  }

  lemma ElemsSnoc(s: seq<Path>, x: Path)
    ensures Elems(s + [x]) == Elems(s) + {x}
  {
  }

  /** The listed paths one _helper call hands to _scanfile. */
  function Scans(dirname: Path, names: seq<string>, patterns: seq<Pattern>, fs: FileSystem): set<Path>
  {
    set p | p in Children(dirname, names) && Scannable(p, patterns, fs)
  }

  lemma ScansSnoc(dirname: Path, names: seq<string>, n: string, patterns: seq<Pattern>, fs: FileSystem)
    ensures var p := JoinPath(dirname, n);
            Scans(dirname, names + [n], patterns, fs) ==
              Scans(dirname, names, patterns, fs) + (if Scannable(p, patterns, fs) then {p} else {})
  {
    ChildrenSnoc(dirname, names, n);
  }

  /** Every key added since keys0 lies below top. */
  predicate AddedUnder(keys: set<Path>, keys0: set<Path>, top: Path)
  {
    forall p :: p in keys && p !in keys0 ==> Under(p, top)
  }

  /** Every entry from index n0 on names a path below top. */
  predicate EntriesUnder(errs: seq<(Path, string)>, n0: nat, top: Path)
  {
    forall k :: n0 <= k < |errs| ==> Under(errs[k].0, top)
  }

  /** What a descent into a child of top adds lies below top too. */
  lemma AddedUnderDescent(keys0: set<Path>, keysMid: set<Path>, keys: set<Path>, child: Path, top: Path)
    requires AddedUnder(keysMid, keys0, top) && AddedUnder(keys, keysMid, child) && Under(child, top)
    ensures AddedUnder(keys, keys0, top)
  {
    forall p | p in keys && p !in keys0
      ensures Under(p, top)
    {
      if p !in keysMid {
        UnderTransitive(p, child, top);
      }
    }
  }

  lemma EntriesUnderDescent(errsMid: seq<(Path, string)>, errs: seq<(Path, string)>, n0: nat, child: Path, top: Path)
    requires errsMid <= errs && EntriesUnder(errsMid, n0, top) && EntriesUnder(errs, |errsMid|, child)
    requires Under(child, top)
    ensures EntriesUnder(errs, n0, top)
  {
    forall k | n0 <= k < |errs|
      ensures Under(errs[k].0, top)
    {
      if k >= |errsMid| {
        UnderTransitive(errs[k].0, child, top);
      } else {
        assert errs[k] == errsMid[k];
      }
    }
  }

  /** p is one of the include entries or lies below one. */
  predicate Within(p: Path, roots: seq<Path>)
  {
    exists j :: 0 <= j < |roots| && (p == roots[j] || Under(p, roots[j]))
  }

  /** Every key added since keys0 is within the include entries. */
  predicate AddedWithin(keys: set<Path>, keys0: set<Path>, roots: seq<Path>)
  {
    forall p :: p in keys && p !in keys0 ==> Within(p, roots)
  }

  /** Every entry from index n0 on names a path within the include entries. */
  predicate EntriesWithin(errs: seq<(Path, string)>, n0: nat, roots: seq<Path>)
  {
    forall k :: n0 <= k < |errs| ==> Within(errs[k].0, roots)
  }

  /** What processing include entry i adds (the entry itself or paths below it) is within the include entries. */
  lemma AddedWithinDescent(keys0: set<Path>, keysMid: set<Path>, keys: set<Path>, roots: seq<Path>, i: nat)
    requires i < |roots|
    requires AddedWithin(keysMid, keys0, roots)
    requires forall p :: p in keys && p !in keysMid ==> p == roots[i] || Under(p, roots[i])
    ensures AddedWithin(keys, keys0, roots)
  {
    forall p | p in keys && p !in keys0
      ensures Within(p, roots)
    {
      if p !in keysMid {
        assert p == roots[i] || Under(p, roots[i]);
      }
    }
  }

  lemma EntriesWithinDescent(errsMid: seq<(Path, string)>, errs: seq<(Path, string)>, n0: nat, roots: seq<Path>, i: nat)
    requires i < |roots|
    requires errsMid <= errs && EntriesWithin(errsMid, n0, roots) && EntriesUnder(errs, |errsMid|, roots[i])
    ensures EntriesWithin(errs, n0, roots)
  {
    forall k | n0 <= k < |errs|
      ensures Within(errs[k].0, roots)
    {
      if k >= |errsMid| {
        assert Under(errs[k].0, roots[i]);
      } else {
        assert errs[k] == errsMid[k];
      }
    }
  }

  /** What _helper appends to errorlist names paths below the directory it lists. */
  lemma StatErrorsUnder(errs0: seq<(Path, string)>, errs: seq<(Path, string)>, patterns: seq<Pattern>,
                        fs: FileSystem, dirname: Path, names: seq<string>)
    requires forall n :: n in names ==> ValidName(n)
    requires errs == errs0 + StatErrors(patterns, fs, dirname, names)
    ensures EntriesUnder(errs, |errs0|, dirname)
  {
    ChildrenBelow(dirname, names);
    var added := StatErrors(patterns, fs, dirname, names);
    forall k | |errs0| <= k < |errs|
      ensures Under(errs[k].0, dirname)
    {
      assert errs[k] == added[k - |errs0|];
    }
  }

  /** What _helper hands to _scanfile, and the directory itself, end up in the scanned list. */
  lemma ScansScanned(s0: seq<Path>, s: seq<Path>, dirname: Path, names: seq<string>, patterns: seq<Pattern>,
                     fs: FileSystem)
    requires Elems(s) == Elems(s0) + {dirname} + Scans(dirname, names, patterns, fs)
    ensures dirname in s
    ensures forall c :: c in Children(dirname, names) && Scannable(c, patterns, fs) ==> c in s
  {
    assert dirname in Elems(s);
    forall c | c in Children(dirname, names) && Scannable(c, patterns, fs)
      ensures c in s
    {
      assert c in Scans(dirname, names, patterns, fs);
      assert c in Elems(s);
    }
  }

  /** The paths _helper selects lie below the directory it lists. */
  lemma PicksUnder(keys0: set<Path>, dirname: Path, names: seq<string>, scanned0: seq<Path>, patterns: seq<Pattern>,
                   fs: FileSystem, h: Hasher, db: Db)
    requires forall n :: n in names ==> ValidName(n)
    ensures AddedUnder(keys0 + Picks(dirname, names, scanned0, patterns, fs, h, db), keys0, dirname)
  {
    ChildrenBelow(dirname, names);
  }

  /** The part of the disk strictly deeper than a path: what a walk below it can still visit. */
  function Below(fs: FileSystem, top: Path): set<Path>
  {
    set k | k in fs && |k| > |top|
  }

  /** Going down to a child that exists leaves strictly less of the disk to visit. */
  lemma BelowShrinks(fs: FileSystem, top: Path, child: Path)
    requires child in fs && |child| > |top|
    ensures Below(fs, child) < Below(fs, top)
  {
    assert child in Below(fs, top) && child !in Below(fs, child);
  }

  /** A path whose lstat says directory: os.path.walk descends into it. */
  predicate LstatDir(fs: FileSystem, p: Path)
  {
    Lstat(fs, p).Success? && IsDir(Lstat(fs, p).value.mode)
  }

  /** A path os.path.walk descends into and whose listing succeeds. */
  predicate Walkable(fs: FileSystem, p: Path)
  {
    LstatDir(fs, p) && Listing(fs, p).Some?
  }

  /**
   * d is reached from top by n descents of os.path.walk: each step goes
   * from a directory whose listing succeeds to a listed path whose lstat
   * says directory.
   */
  ghost predicate Reaches(fs: FileSystem, top: Path, d: Path, n: nat)
    decreases n
  {
    if n == 0 then d == top
    else exists c :: Descent(fs, top, c) && Reaches(fs, c, d, n - 1)
  }

  /** One descent of os.path.walk: c can be listed, and d is a listed path of c whose lstat says directory. */
  predicate Descent(fs: FileSystem, c: Path, d: Path)
  {
    Listing(fs, c).Some? && d in Children(c, Listing(fs, c).value) && LstatDir(fs, d)
  }

  /** p is a listed path of some directory the walk of top reaches. */
  ghost predicate InTree(fs: FileSystem, top: Path, p: Path)
  {
    exists d, n: nat :: Reaches(fs, top, d, n) && Listing(fs, d).Some? && p in Children(d, Listing(fs, d).value)
  }

  /** One descent more: what the walk of a listed directory of top lists, the walk of top lists too. */
  lemma InTreeDescent(fs: FileSystem, top: Path, child: Path, p: Path)
    requires Descent(fs, top, child) && InTree(fs, child, p)
    ensures InTree(fs, top, p)
  {
    var d, n: nat :| Reaches(fs, child, d, n) && Listing(fs, d).Some? && p in Children(d, Listing(fs, d).value);
    assert Reaches(fs, top, d, n + 1);
  }

  /**
   * Every key added since keys0 is what _scanfile can select in the walk
   * of top: a listed path of the walk, scannable, and not scanned in s0.
   */
  ghost predicate AddedInTree(keys: set<Path>, keys0: set<Path>, s0: seq<Path>, fs: FileSystem,
                              patterns: seq<Pattern>, top: Path)
  {
    forall p :: p in keys && p !in keys0 ==> p !in s0 && Scannable(p, patterns, fs) && InTree(fs, top, p)
  }

  /** What _helper selects on the listing of top is added in the walk of top. */
  lemma PicksInTree(keys0: set<Path>, top: Path, names: seq<string>, scanned0: seq<Path>, patterns: seq<Pattern>,
                    fs: FileSystem, h: Hasher, db: Db)
    requires Listing(fs, top) == Some(names)
    ensures AddedInTree(keys0 + Picks(top, names, scanned0, patterns, fs, h, db), keys0, scanned0, fs, patterns, top)
  {
    assert Reaches(fs, top, top, 0);
  }

  /** What the walk of a listed directory of top adds, against a later scanned list, is added in the walk of top. */
  lemma AddedInTreeDescent(keys0: set<Path>, keysMid: set<Path>, keys: set<Path>, s0: seq<Path>, sMid: seq<Path>,
                           fs: FileSystem, patterns: seq<Pattern>, child: Path, top: Path)
    requires AddedInTree(keysMid, keys0, s0, fs, patterns, top) && AddedInTree(keys, keysMid, sMid, fs, patterns, child)
    requires s0 <= sMid && Descent(fs, top, child)
    ensures AddedInTree(keys, keys0, s0, fs, patterns, top)
  {
    PrefixMembers(s0, sMid);
    forall p | p in keys && p !in keys0
      ensures p !in s0 && InTree(fs, top, p)
    {
      if p !in keysMid {
        InTreeDescent(fs, top, child, p);
      }
    }
  }

  /** p is one of the include entries or a listed path of the walk of one. */
  ghost predicate FromSources(fs: FileSystem, roots: seq<Path>, p: Path)
  {
    exists j :: 0 <= j < |roots| && (p == roots[j] || InTree(fs, roots[j], p))
  }

  /**
   * Every key added since keys0 is what _scanfile can select in
   * checksources: scannable, not scanned in s0, an include entry or listed
   * by the walk of one.
   */
  ghost predicate AddedFromSources(keys: set<Path>, keys0: set<Path>, s0: seq<Path>, fs: FileSystem,
                                   patterns: seq<Pattern>, roots: seq<Path>)
  {
    forall p :: p in keys && p !in keys0 ==> p !in s0 && Scannable(p, patterns, fs) && FromSources(fs, roots, p)
  }

  /** The walk of include entry i adds only what checksources may add. */
  lemma AddedFromSourcesWalk(keys0: set<Path>, keysMid: set<Path>, keys: set<Path>, s0: seq<Path>, sMid: seq<Path>,
                             fs: FileSystem, patterns: seq<Pattern>, roots: seq<Path>, i: nat)
    requires i < |roots| && s0 <= sMid
    requires AddedFromSources(keysMid, keys0, s0, fs, patterns, roots)
    requires AddedInTree(keys, keysMid, sMid, fs, patterns, roots[i])
    ensures AddedFromSources(keys, keys0, s0, fs, patterns, roots)
  {
    PrefixMembers(s0, sMid);
    forall p | p in keys && p !in keys0
      ensures p !in s0 && FromSources(fs, roots, p)
    {
      if p !in keysMid {
        assert InTree(fs, roots[i], p);
      }
    }
  }

  /** Scanning include entry i itself adds only what checksources may add. */
  lemma AddedFromSourcesScan(keys0: set<Path>, keysMid: set<Path>, keys: set<Path>, s0: seq<Path>, sMid: seq<Path>,
                             fs: FileSystem, patterns: seq<Pattern>, roots: seq<Path>, i: nat)
    requires i < |roots| && s0 <= sMid && roots[i] !in sMid && Scannable(roots[i], patterns, fs)
    requires AddedFromSources(keysMid, keys0, s0, fs, patterns, roots)
    requires keys <= keysMid + {roots[i]}
    ensures AddedFromSources(keys, keys0, s0, fs, patterns, roots)
  {
    PrefixMembers(s0, sMid);
  }

  /** Every path of s that _scanfile would keep, being scannable and needing backup, is among keys. */
  ghost predicate Selects(s: seq<Path>, keys: set<Path>, fs: FileSystem, h: Hasher, db: Db, patterns: seq<Pattern>)
  {
    forall p :: p in s && Scannable(p, patterns, fs) && Wanted(fs, h, db, p) ==> p in keys
  }

  /** Scanning one more path keeps Selects when the path is kept whenever it should be. */
  lemma SelectsScan(s: seq<Path>, keys0: set<Path>, keys: set<Path>, fs: FileSystem, h: Hasher, db: Db,
                    patterns: seq<Pattern>, path: Path)
    requires Selects(s, keys0, fs, h, db, patterns) && keys0 <= keys
    requires Scannable(path, patterns, fs) && Wanted(fs, h, db, path) ==> path in keys
    ensures Selects(s + [path], keys, fs, h, db, patterns)
  {
  }

  /** The set of entries of an errorlist. */
  function ErrorSet(errs: seq<(Path, string)>): (r: set<(Path, string)>)
    ensures forall e :: e in r <==> e in errs
  {
    set e | e in errs
  }

  lemma ErrorSetPrefix(a: seq<(Path, string)>, b: seq<(Path, string)>)
    requires a <= b
    ensures ErrorSet(a) <= ErrorSet(b)
  {
    PrefixMembers(a, b);
  }

  /**
   * Every path of cs that is not excluded and whose lstat fails has its
   * (path, strerror) entry in errs.
   */
  ghost predicate Recorded(errs: set<(Path, string)>, fs: FileSystem, patterns: seq<Pattern>, cs: seq<Path>)
  {
    forall c :: c in cs && !IsExcluded(c, patterns) && Lstat(fs, c).Failure? ==> (c, Lstat(fs, c).error) in errs
  }

  /** The entries one _helper call appends record every failing lstat of its listing. */
  lemma StatErrorsRecorded(e0: seq<(Path, string)>, e: seq<(Path, string)>, patterns: seq<Pattern>, fs: FileSystem,
                           dirname: Path, names: seq<string>)
    requires e == e0 + StatErrors(patterns, fs, dirname, names)
    ensures Recorded(ErrorSet(e), fs, patterns, Children(dirname, names))
  {
    forall c | c in Children(dirname, names) && !IsExcluded(c, patterns) && Lstat(fs, c).Failure?
      ensures (c, Lstat(fs, c).error) in ErrorSet(e)
    {
      var k :| 0 <= k < |names| && Children(dirname, names)[k] == c;
      assert names[k] in names;
      assert (c, Lstat(fs, c).error) in StatErrors(patterns, fs, dirname, names);
    }
  }

  /**
   * _helper has run on d: when d can be listed, d and its scannable listed
   * paths are in s, and every failing lstat of a listed path that is not
   * excluded is recorded in errs.
   */
  ghost predicate Visited(s: set<Path>, errs: set<(Path, string)>, fs: FileSystem, patterns: seq<Pattern>, d: Path)
  {
    Listing(fs, d).Some? ==>
      && d in s
      && (forall c :: c in Children(d, Listing(fs, d).value) && Scannable(c, patterns, fs) ==> c in s)
      && Recorded(errs, fs, patterns, Children(d, Listing(fs, d).value))
  }

  /** The whole walk of top is in s and errs: every directory it reaches has been visited. */
  ghost predicate Covered(s: set<Path>, errs: set<(Path, string)>, fs: FileSystem, patterns: seq<Pattern>, top: Path)
  {
    forall d, n: nat :: Reaches(fs, top, d, n) ==> Visited(s, errs, fs, patterns, d)
  }

  /**
   * Every directory added to the scanned paths since s0, other than the
   * walks still in progress (open), has had its whole walk done.
   */
  ghost predicate NewCovered(s0: set<Path>, s: set<Path>, errs: set<(Path, string)>, fs: FileSystem,
                             patterns: seq<Pattern>, open: set<Path>)
  {
    forall d {:trigger Covered(s, errs, fs, patterns, d)} ::
      d in s && d !in s0 && d !in open && LstatDir(fs, d) ==> Covered(s, errs, fs, patterns, d)
  }

  /** A walk that is covered stays covered as more paths are scanned and more errors recorded. */
  lemma CoveredMono(s1: set<Path>, s2: set<Path>, e1: set<(Path, string)>, e2: set<(Path, string)>, fs: FileSystem,
                    patterns: seq<Pattern>, top: Path)
    requires s1 <= s2 && e1 <= e2 && Covered(s1, e1, fs, patterns, top)
    ensures Covered(s2, e2, fs, patterns, top)
  {
    forall d, n: nat | Reaches(fs, top, d, n)
      ensures Visited(s2, e2, fs, patterns, d)
    {
      assert Visited(s1, e1, fs, patterns, d);
    }
  }

  /** A walk whose top cannot be listed reaches nothing to visit. */
  lemma CoveredNoListing(s: set<Path>, errs: set<(Path, string)>, fs: FileSystem, patterns: seq<Pattern>, top: Path)
    requires Listing(fs, top).None?
    ensures Covered(s, errs, fs, patterns, top)
  {
    forall d, n: nat | Reaches(fs, top, d, n)
      ensures Visited(s, errs, fs, patterns, d)
    {
      if n > 0 {
        assert false;
      }
    }
  }

  /**
   * The walk of top is covered once top has been visited and the walk of
   * each listed directory is covered.
   */
  lemma CoveredFromChildren(s: set<Path>, errs: set<(Path, string)>, fs: FileSystem, patterns: seq<Pattern>, top: Path,
                            names: seq<string>)
    requires Listing(fs, top) == Some(names) && Visited(s, errs, fs, patterns, top)
    requires forall k :: 0 <= k < |names| && LstatDir(fs, Children(top, names)[k]) ==>
               Covered(s, errs, fs, patterns, Children(top, names)[k])
    ensures Covered(s, errs, fs, patterns, top)
  {
    forall d, n: nat | Reaches(fs, top, d, n)
      ensures Visited(s, errs, fs, patterns, d)
    {
      if n > 0 {
        var c :| Descent(fs, top, c) && Reaches(fs, c, d, n - 1);
        var k :| 0 <= k < |names| && Children(top, names)[k] == c;
        assert Covered(s, errs, fs, patterns, c);
      }
    }
  }

  /**
   * Completeness of a walk: when its walk is covered by the scanned paths
   * and every scanned path that is scannable and needs backup was kept,
   * every listed path of the tree that is scannable and needs backup was
   * kept.
   */
  lemma WalkSelects(s: set<Path>, errs: set<(Path, string)>, keys: set<Path>, fs: FileSystem, h: Hasher, db: Db,
                    patterns: seq<Pattern>, top: Path)
    requires Covered(s, errs, fs, patterns, top)
    requires forall p :: p in s && Scannable(p, patterns, fs) && Wanted(fs, h, db, p) ==> p in keys
    ensures forall p :: InTree(fs, top, p) && Scannable(p, patterns, fs) && Wanted(fs, h, db, p) ==> p in keys
  {
    forall p | InTree(fs, top, p) && Scannable(p, patterns, fs) && Wanted(fs, h, db, p)
      ensures p in keys
    {
      var d, n: nat :| Reaches(fs, top, d, n) && Listing(fs, d).Some? && p in Children(d, Listing(fs, d).value);
      assert Visited(s, errs, fs, patterns, d);
    }
  }

  /**
   * Error completeness of a walk: when its walk is covered, every listed
   * path of the tree that is not excluded and whose lstat fails has its
   * (path, strerror) entry recorded.
   */
  lemma WalkRecords(s: set<Path>, errs: set<(Path, string)>, fs: FileSystem, patterns: seq<Pattern>, top: Path)
    requires Covered(s, errs, fs, patterns, top)
    ensures forall p :: InTree(fs, top, p) && !IsExcluded(p, patterns) && Lstat(fs, p).Failure? ==>
              (p, Lstat(fs, p).error) in errs
  {
    forall p | InTree(fs, top, p) && !IsExcluded(p, patterns) && Lstat(fs, p).Failure?
      ensures (p, Lstat(fs, p).error) in errs
    {
      var d, n: nat :| Reaches(fs, top, d, n) && Listing(fs, d).Some? && p in Children(d, Listing(fs, d).value);
      assert Visited(s, errs, fs, patterns, d);
    }
  }

  /** Scanning more paths keeps NewCovered when every addition is an open walk or not a directory. */
  lemma NewCoveredAdd(s0: set<Path>, s1: set<Path>, s2: set<Path>, e1: set<(Path, string)>, e2: set<(Path, string)>,
                      fs: FileSystem, patterns: seq<Pattern>, open: set<Path>)
    requires s1 <= s2 && e1 <= e2 && NewCovered(s0, s1, e1, fs, patterns, open)
    requires forall d :: d in s2 && d !in s1 ==> d in open || !LstatDir(fs, d)
    ensures NewCovered(s0, s2, e2, fs, patterns, open)
  {
    forall d | d in s2 && d !in s0 && d !in open && LstatDir(fs, d)
      ensures Covered(s2, e2, fs, patterns, d)
    {
      CoveredMono(s1, s2, e1, e2, fs, patterns, d);
    }
  }

  /** NewCovered since s0 and, for a finished walk, since s1 give NewCovered since s0. */
  lemma NewCoveredChain(s0: set<Path>, s1: set<Path>, s2: set<Path>, e1: set<(Path, string)>, e2: set<(Path, string)>,
                        fs: FileSystem, patterns: seq<Pattern>, open: set<Path>)
    requires s1 <= s2 && e1 <= e2 && NewCovered(s0, s1, e1, fs, patterns, open) && NewCovered(s1, s2, e2, fs, patterns, {})
    ensures NewCovered(s0, s2, e2, fs, patterns, open)
  {
    forall d | d in s2 && d !in s0 && d !in open && LstatDir(fs, d)
      ensures Covered(s2, e2, fs, patterns, d)
    {
      if d in s1 {
        CoveredMono(s1, s2, e1, e2, fs, patterns, d);
      }
    }
  }

  /**
   * The walk of top, after its first i listed paths were considered for
   * descent: the failing lstats of its listing are recorded, each of those
   * i paths that lstat calls a directory is covered, and every other
   * directory scanned since s0 is covered unless it is top.
   */
  ghost predicate WalkCovered(s0: set<Path>, s: set<Path>, errs: set<(Path, string)>, fs: FileSystem,
                              patterns: seq<Pattern>, top: Path, names: seq<string>, i: nat)
    requires i <= |names|
  {
    && Recorded(errs, fs, patterns, Children(top, names))
    && (forall k :: 0 <= k < i && LstatDir(fs, Children(top, names)[k]) ==>
          Covered(s, errs, fs, patterns, Children(top, names)[k]))
    && NewCovered(s0, s, errs, fs, patterns, {top})
  }

  /** Considering listed path i, walking it completely when lstat calls it a directory. */
  lemma WalkCoveredStep(s0: set<Path>, s1: set<Path>, s2: set<Path>, e1: set<(Path, string)>, e2: set<(Path, string)>,
                        fs: FileSystem, patterns: seq<Pattern>, top: Path, names: seq<string>, i: nat)
    requires i < |names| && s1 <= s2 && e1 <= e2
    requires WalkCovered(s0, s1, e1, fs, patterns, top, names, i) && NewCovered(s1, s2, e2, fs, patterns, {})
    requires LstatDir(fs, Children(top, names)[i]) ==> Covered(s2, e2, fs, patterns, Children(top, names)[i])
    ensures WalkCovered(s0, s2, e2, fs, patterns, top, names, i + 1)
  {
    forall k | 0 <= k < i && LstatDir(fs, Children(top, names)[k])
      ensures Covered(s2, e2, fs, patterns, Children(top, names)[k])
    {
      CoveredMono(s1, s2, e1, e2, fs, patterns, Children(top, names)[k]);
    }
    NewCoveredChain(s0, s1, s2, e1, e2, fs, patterns, {top});
  }

  /**
   * Checksources after its first i include entries: every directory scanned
   * since s0 is covered, and so is each of those entries that is not
   * excluded, was not scanned before, and lstat calls a directory.
   */
  ghost predicate SourcesCovered(roots: seq<Path>, i: nat, s0: seq<Path>, s: set<Path>, errs: set<(Path, string)>,
                                 fs: FileSystem, patterns: seq<Pattern>)
    requires i <= |roots|
  {
    && NewCovered(Elems(s0), s, errs, fs, patterns, {})
    && (forall j :: (0 <= j < i && !IsExcluded(roots[j], patterns) && roots[j] !in s0 && LstatDir(fs, roots[j])) ==>
          Covered(s, errs, fs, patterns, roots[j]))
  }

  /** Include entry i dealt with by a complete walk, or by nothing at all. */
  lemma SourcesCoveredStep(roots: seq<Path>, i: nat, s0: seq<Path>, s1: set<Path>, s2: set<Path>,
                           e1: set<(Path, string)>, e2: set<(Path, string)>, fs: FileSystem, patterns: seq<Pattern>)
    requires i < |roots| && s1 <= s2 && e1 <= e2
    requires SourcesCovered(roots, i, s0, s1, e1, fs, patterns) && NewCovered(s1, s2, e2, fs, patterns, {})
    requires !IsExcluded(roots[i], patterns) && roots[i] !in s0 && LstatDir(fs, roots[i]) ==>
               Covered(s2, e2, fs, patterns, roots[i])
    ensures SourcesCovered(roots, i + 1, s0, s2, e2, fs, patterns)
  {
    forall j | 0 <= j < i && !IsExcluded(roots[j], patterns) && roots[j] !in s0 && LstatDir(fs, roots[j])
      ensures Covered(s2, e2, fs, patterns, roots[j])
    {
      CoveredMono(s1, s2, e1, e2, fs, patterns, roots[j]);
    }
    NewCoveredChain(Elems(s0), s1, s2, e1, e2, fs, patterns, {});
  }

  /** Include entry i handed to _scanfile: only non-directories were added. */
  lemma SourcesCoveredScan(roots: seq<Path>, i: nat, s0: seq<Path>, s1: set<Path>, s2: set<Path>,
                           errs: set<(Path, string)>, fs: FileSystem, patterns: seq<Pattern>)
    requires i < |roots| && s1 <= s2 && !LstatDir(fs, roots[i])
    requires SourcesCovered(roots, i, s0, s1, errs, fs, patterns)
    requires forall d :: d in s2 && d !in s1 ==> !LstatDir(fs, d)
    ensures SourcesCovered(roots, i + 1, s0, s2, errs, fs, patterns)
  {
    SourcesCoveredStep(roots, i, s0, s1, s2, errs, errs, fs, patterns);
  }

  /** A walk that has finished is no longer open. */
  lemma NewCoveredClose(s0: set<Path>, s: set<Path>, errs: set<(Path, string)>, fs: FileSystem, patterns: seq<Pattern>,
                        top: Path)
    requires NewCovered(s0, s, errs, fs, patterns, {top}) && Covered(s, errs, fs, patterns, top)
    ensures NewCovered(s0, s, errs, fs, patterns, {})
  {
  }

  /**
   * Completeness of checksources: when the walk of every include directory
   * not scanned before is covered, every path in any of those walks that is
   * scannable and needs backup was kept (given every such scanned path was),
   * and every failing lstat in them of a path that is not excluded was
   * recorded.
   */
  lemma SourcesSelect(roots: seq<Path>, s0: seq<Path>, s: set<Path>, errs: set<(Path, string)>, keys: set<Path>,
                      fs: FileSystem, h: Hasher, db: Db, patterns: seq<Pattern>)
    requires forall j :: 0 <= j < |roots| && !IsExcluded(roots[j], patterns) && roots[j] !in s0 && LstatDir(fs, roots[j]) ==>
               Covered(s, errs, fs, patterns, roots[j])
    requires forall p :: p in s && Scannable(p, patterns, fs) && Wanted(fs, h, db, p) ==> p in keys
    ensures forall item, p :: (item in roots && !IsExcluded(item, patterns) && item !in s0 && LstatDir(fs, item) &&
                               InTree(fs, item, p) && Scannable(p, patterns, fs) && Wanted(fs, h, db, p)) ==> p in keys
    ensures forall item, p :: (item in roots && !IsExcluded(item, patterns) && item !in s0 && LstatDir(fs, item) &&
                               InTree(fs, item, p) && !IsExcluded(p, patterns) && Lstat(fs, p).Failure?) ==>
              (p, Lstat(fs, p).error) in errs
  {
    forall item, p | item in roots && !IsExcluded(item, patterns) && item !in s0 && LstatDir(fs, item) &&
                     InTree(fs, item, p) && Scannable(p, patterns, fs) && Wanted(fs, h, db, p)
      ensures p in keys
    {
      var j :| 0 <= j < |roots| && roots[j] == item;
      WalkSelects(s, errs, keys, fs, h, db, patterns, item);
    }
    forall item, p | item in roots && !IsExcluded(item, patterns) && item !in s0 && LstatDir(fs, item) &&
                     InTree(fs, item, p) && !IsExcluded(p, patterns) && Lstat(fs, p).Failure?
      ensures (p, Lstat(fs, p).error) in errs
    {
      var j :| 0 <= j < |roots| && roots[j] == item;
      WalkRecords(s, errs, fs, patterns, item);
    }
  }

  /**
   * The walk of top, on explicit state: _helper ran on its listing (top and
   * its scannable listed paths are scanned), the first i listed paths were
   * considered for descent, whatever was kept or recorded since the start
   * lies below top, and the walk is covered that far.
   */
  ghost predicate Walked(fs: FileSystem, patterns: seq<Pattern>, top: Path, names: seq<string>, i: nat,
                         scanned0: seq<Path>, keys0: set<Path>, errorlist0: seq<(Path, string)>,
                         scanned: seq<Path>, keys: set<Path>, errorlist: seq<(Path, string)>)
    requires i <= |names|
  {
    && Listing(fs, top) == Some(names)
    && top in scanned
    && (forall c :: c in Children(top, names) && Scannable(c, patterns, fs) ==> c in scanned)
    && (forall k :: 0 <= k < i && Walkable(fs, Children(top, names)[k]) ==> Children(top, names)[k] in scanned)
    && AddedUnder(keys, keys0, top)
    && AddedInTree(keys, keys0, scanned0, fs, patterns, top)
    && EntriesUnder(errorlist, |errorlist0|, top)
    && WalkCovered(Elems(scanned0), Elems(scanned), ErrorSet(errorlist), fs, patterns, top, names, i)
  }

  /** Right after _helper ran on the listing of top, the walk of top has started. */
  lemma WalkedStart(fs: FileSystem, patterns: seq<Pattern>, h: Hasher, db: Db, top: Path, names: seq<string>,
                    scanned0: seq<Path>, keys0: set<Path>, errorlist0: seq<(Path, string)>,
                    scanned: seq<Path>, keys: set<Path>, errorlist: seq<(Path, string)>)
    requires Listing(fs, top) == Some(names) && forall n :: n in names ==> ValidName(n)
    requires errorlist == errorlist0 + StatErrors(patterns, fs, top, names)
    requires Elems(scanned) == Elems(scanned0) + {top} + Scans(top, names, patterns, fs)
    requires keys == keys0 + Picks(top, names, scanned0, patterns, fs, h, db)
    ensures Walked(fs, patterns, top, names, 0, scanned0, keys0, errorlist0, scanned, keys, errorlist)
  {
    StatErrorsUnder(errorlist0, errorlist, patterns, fs, top, names);
    ScansScanned(scanned0, scanned, top, names, patterns, fs);
    PicksUnder(keys0, top, names, scanned0, patterns, fs, h, db);
    PicksInTree(keys0, top, names, scanned0, patterns, fs, h, db);
    StatErrorsRecorded(errorlist0, errorlist, patterns, fs, top, names);
    ErrorSetPrefix(errorlist0, errorlist);
    NewCoveredAdd(Elems(scanned0), Elems(scanned0), Elems(scanned), ErrorSet(errorlist0), ErrorSet(errorlist),
                  fs, patterns, {top});
  }

  /**
   * Once every listed path of top was considered for descent, the walk of
   * top is covered and no longer open, every scannable path of its tree
   * that needs backup was kept, and every failing lstat in it was recorded.
   */
  lemma WalkedEnd(fs: FileSystem, patterns: seq<Pattern>, h: Hasher, db: Db, top: Path, names: seq<string>,
                  scanned0: seq<Path>, keys0: set<Path>, errorlist0: seq<(Path, string)>,
                  scanned: seq<Path>, keys: set<Path>, errorlist: seq<(Path, string)>)
    requires Listing(fs, top) == Some(names)
    requires Walked(fs, patterns, top, names, |names|, scanned0, keys0, errorlist0, scanned, keys, errorlist)
    requires Selects(scanned, keys, fs, h, db, patterns)
    ensures Covered(Elems(scanned), ErrorSet(errorlist), fs, patterns, top)
    ensures NewCovered(Elems(scanned0), Elems(scanned), ErrorSet(errorlist), fs, patterns, {})
    ensures forall p :: InTree(fs, top, p) && Scannable(p, patterns, fs) && Wanted(fs, h, db, p) ==> p in keys
    ensures forall p :: InTree(fs, top, p) && !IsExcluded(p, patterns) && Lstat(fs, p).Failure? ==>
              (p, Lstat(fs, p).error) in errorlist
  {
    CoveredFromChildren(Elems(scanned), ErrorSet(errorlist), fs, patterns, top, names);
    NewCoveredClose(Elems(scanned0), Elems(scanned), ErrorSet(errorlist), fs, patterns, top);
    WalkSelects(Elems(scanned), ErrorSet(errorlist), keys, fs, h, db, patterns, top);
    WalkRecords(Elems(scanned), ErrorSet(errorlist), fs, patterns, top);
  }

  /** A complete walk of listed path i, a directory, advances the walk of top by one. */
  lemma WalkedDescend(fs: FileSystem, patterns: seq<Pattern>, top: Path, names: seq<string>, i: nat,
                      scanned0: seq<Path>, keys0: set<Path>, errorlist0: seq<(Path, string)>,
                      scannedMid: seq<Path>, keysMid: set<Path>, errorsMid: seq<(Path, string)>,
                      scanned: seq<Path>, keys: set<Path>, errorlist: seq<(Path, string)>)
    requires i < |names| && Under(Children(top, names)[i], top)
    requires Walked(fs, patterns, top, names, i, scanned0, keys0, errorlist0, scannedMid, keysMid, errorsMid)
    requires scanned0 <= scannedMid <= scanned && errorsMid <= errorlist
    requires LstatDir(fs, Children(top, names)[i])
    requires Covered(Elems(scanned), ErrorSet(errorlist), fs, patterns, Children(top, names)[i])
    requires NewCovered(Elems(scannedMid), Elems(scanned), ErrorSet(errorlist), fs, patterns, {})
    requires Listing(fs, Children(top, names)[i]).Some? ==> Children(top, names)[i] in scanned
    requires AddedUnder(keys, keysMid, Children(top, names)[i])
    requires AddedInTree(keys, keysMid, scannedMid, fs, patterns, Children(top, names)[i])
    requires EntriesUnder(errorlist, |errorsMid|, Children(top, names)[i])
    ensures Walked(fs, patterns, top, names, i + 1, scanned0, keys0, errorlist0, scanned, keys, errorlist)
  {
    var child := Children(top, names)[i];
    PrefixMembers(scannedMid, scanned);
    ElemsPrefix(scannedMid, scanned);
    ErrorSetPrefix(errorsMid, errorlist);
    AddedUnderDescent(keys0, keysMid, keys, child, top);
    AddedInTreeDescent(keys0, keysMid, keys, scanned0, scannedMid, fs, patterns, child, top);
    EntriesUnderDescent(errorsMid, errorlist, |errorlist0|, child, top);
    WalkCoveredStep(Elems(scanned0), Elems(scannedMid), Elems(scanned), ErrorSet(errorsMid), ErrorSet(errorlist),
                    fs, patterns, top, names, i);
  }

  /** An include entry checksources has dealt with: excluded, scanned, or a directory that cannot be listed. */
  predicate Dealt(item: Path, patterns: seq<Pattern>, fs: FileSystem, scanned: seq<Path>)
  {
    || IsExcluded(item, patterns)
    || item in scanned
    || (LstatDir(fs, item) && Listing(fs, item).None?)
  }

  /**
   * Checksources on explicit state, after its first i include entries: each
   * is dealt with, whatever was kept or recorded since the start is within
   * the include entries, and the walks are covered that far.
   */
  ghost predicate Sourced(fs: FileSystem, patterns: seq<Pattern>, roots: seq<Path>, i: nat,
                          scanned0: seq<Path>, keys0: set<Path>, errorlist0: seq<(Path, string)>,
                          scanned: seq<Path>, keys: set<Path>, errorlist: seq<(Path, string)>)
    requires i <= |roots|
  {
    && (forall j :: 0 <= j < i ==> Dealt(roots[j], patterns, fs, scanned))
    && AddedWithin(keys, keys0, roots)
    && AddedFromSources(keys, keys0, scanned0, fs, patterns, roots)
    && EntriesWithin(errorlist, |errorlist0|, roots)
    && SourcesCovered(roots, i, scanned0, Elems(scanned), ErrorSet(errorlist), fs, patterns)
  }

  /** A complete walk of include entry i, a directory, advances checksources by one. */
  lemma SourcedWalk(fs: FileSystem, patterns: seq<Pattern>, roots: seq<Path>, i: nat,
                    scanned0: seq<Path>, keys0: set<Path>, errorlist0: seq<(Path, string)>,
                    scannedMid: seq<Path>, keysMid: set<Path>, errorsMid: seq<(Path, string)>,
                    scanned: seq<Path>, keys: set<Path>, errorlist: seq<(Path, string)>)
    requires i < |roots| && LstatDir(fs, roots[i])
    requires Sourced(fs, patterns, roots, i, scanned0, keys0, errorlist0, scannedMid, keysMid, errorsMid)
    requires scanned0 <= scannedMid <= scanned && errorsMid <= errorlist
    requires Covered(Elems(scanned), ErrorSet(errorlist), fs, patterns, roots[i])
    requires NewCovered(Elems(scannedMid), Elems(scanned), ErrorSet(errorlist), fs, patterns, {})
    requires Listing(fs, roots[i]).Some? ==> roots[i] in scanned
    requires AddedUnder(keys, keysMid, roots[i])
    requires AddedInTree(keys, keysMid, scannedMid, fs, patterns, roots[i])
    requires EntriesUnder(errorlist, |errorsMid|, roots[i])
    ensures Sourced(fs, patterns, roots, i + 1, scanned0, keys0, errorlist0, scanned, keys, errorlist)
  {
    PrefixMembers(scannedMid, scanned);
    ElemsPrefix(scannedMid, scanned);
    ErrorSetPrefix(errorsMid, errorlist);
    AddedWithinDescent(keys0, keysMid, keys, roots, i);
    AddedFromSourcesWalk(keys0, keysMid, keys, scanned0, scannedMid, fs, patterns, roots, i);
    EntriesWithinDescent(errorsMid, errorlist, |errorlist0|, roots, i);
    SourcesCoveredStep(roots, i, scanned0, Elems(scannedMid), Elems(scanned), ErrorSet(errorsMid), ErrorSet(errorlist),
                       fs, patterns);
    forall j | 0 <= j < i + 1
      ensures Dealt(roots[j], patterns, fs, scanned)
    {
    }
  }

  /** Include entry i, not a directory, scanned by _scanfile, advances checksources by one. */
  lemma SourcedScan(fs: FileSystem, patterns: seq<Pattern>, roots: seq<Path>, i: nat,
                    scanned0: seq<Path>, keys0: set<Path>, errorlist0: seq<(Path, string)>,
                    scannedMid: seq<Path>, keysMid: set<Path>,
                    scanned: seq<Path>, keys: set<Path>, errorlist: seq<(Path, string)>)
    requires i < |roots| && !LstatDir(fs, roots[i]) && Scannable(roots[i], patterns, fs) && roots[i] !in scannedMid
    requires Sourced(fs, patterns, roots, i, scanned0, keys0, errorlist0, scannedMid, keysMid, errorlist)
    requires scanned0 <= scannedMid && scanned == scannedMid + [roots[i]] && keys <= keysMid + {roots[i]}
    ensures Sourced(fs, patterns, roots, i + 1, scanned0, keys0, errorlist0, scanned, keys, errorlist)
  {
    PrefixMembers(scannedMid, scanned);
    ElemsSnoc(scannedMid, roots[i]);
    AddedWithinDescent(keys0, keysMid, keys, roots, i);
    AddedFromSourcesScan(keys0, keysMid, keys, scanned0, scannedMid, fs, patterns, roots, i);
    SourcesCoveredScan(roots, i, scanned0, Elems(scannedMid), Elems(scanned), ErrorSet(errorlist), fs, patterns);
    forall j | 0 <= j < i + 1
      ensures Dealt(roots[j], patterns, fs, scanned)
    {
    }
  }

  lemma ElemsPrefix(a: seq<Path>, b: seq<Path>)
    requires a <= b
    ensures Elems(a) <= Elems(b)
  {
    PrefixMembers(a, b);
  }

  lemma ListedNamesValid(fs: FileSystem, p: Path)
    requires WellFormed(fs) && Listing(fs, p).Some?
    ensures forall n :: n in Listing(fs, p).value ==> ValidName(n)
  {
    var names := Listing(fs, p).value;
    forall n | n in names
      ensures ValidName(n)
    {
      var k :| 0 <= k < |names| && names[k] == n;
    }
  }

  /**
   * The archive list against the selected paths: no duplicates, parents
   * before children, every selected path not directly under "/" present,
   * and nothing but selected paths and their parents.
   */
  ghost predicate FilelistOk(filelist: seq<Path>, subjects: map<Path, SubjectFile>)
  {
    && NoDup(filelist) && Ordered(filelist)
    && (forall p :: p in subjects && DirName(p) != "/" ==> p in filelist)
    && (forall x :: x in filelist ==> exists q :: q in subjects && Rooted(q) && x in Chain(q))
  }

  /** Selecting one more path and adding it with its parents keeps the list right. */
  lemma SelectKeepsFilelistOk(filelist: seq<Path>, subjects: map<Path, SubjectFile>, path: Path, sf: SubjectFile)
    requires FilelistOk(filelist, subjects) && Rooted(path)
    ensures FilelistOk(WithParents(path, filelist), subjects[path := sf])
  {
    var l := WithParents(path, filelist);
    var s := subjects[path := sf];
    forall x | x in l
      ensures exists q :: q in s && Rooted(q) && x in Chain(q)
    {
      if x in filelist {
        var q :| q in subjects && Rooted(q) && x in Chain(q);
        assert q in s;
      } else {
        assert x in Chain(path) && path in s;
      }
    }
    forall p | p in s && DirName(p) != "/"
      ensures p in l
    {
      if p == path {
        assert path in Chain(path);
      }
    }
  }

  /** What holds of every path kept in subjects. */
  ghost predicate SubjectsOk(subjects: map<Path, SubjectFile>, scanned: seq<Path>, patterns: seq<Pattern>,
                             fs: FileSystem, h: Hasher)
  {
    forall p :: p in subjects ==>
      && Rooted(p) && p in scanned && !IsExcluded(p, patterns)
      && subjects[p].name == p && subjects[p].physical == ReadDisk(p, fs)
      && Consistent(subjects[p]) && NeedsBackup(subjects[p], h, fs)
  }

  lemma ScanKeepsSubjectsOk(subjects: map<Path, SubjectFile>, scanned: seq<Path>, path: Path,
                            patterns: seq<Pattern>, fs: FileSystem, h: Hasher)
    requires SubjectsOk(subjects, scanned, patterns, fs, h)
    ensures SubjectsOk(subjects, scanned + [path], patterns, fs, h)
  {
  }

  lemma SelectKeepsSubjectsOk(subjects: map<Path, SubjectFile>, scanned: seq<Path>, sf: SubjectFile,
                              patterns: seq<Pattern>, fs: FileSystem, h: Hasher)
    requires SubjectsOk(subjects, scanned, patterns, fs, h)
    requires Rooted(sf.name) && sf.name in scanned && !IsExcluded(sf.name, patterns)
    requires sf.physical == ReadDisk(sf.name, fs) && Consistent(sf) && NeedsBackup(sf, h, fs)
    ensures SubjectsOk(subjects[sf.name := sf], scanned, patterns, fs, h)
  {
  }

  class FileManager {
    const scanlist: seq<Path>
    const excludelist: seq<Pattern>
    const dbpath: Path
    const backuplevel: int
    const disk: FileSystem
    const hasher: Hasher

    var virtualsdb: Db
    var errorlist: seq<(Path, string)>
    var filelist: seq<Path>
    var subjects: map<Path, SubjectFile>
    var scanned: seq<Path>

    /**
     * The invariant: subjects are scanned, not excluded and need backup;
     * filelist has no duplicates, lists parents before children, holds every
     * subject not directly under "/" and nothing but subjects and their
     * parents; every errorlist entry is a non-excluded path whose lstat
     * fails with that reason.
     */
    ghost predicate Valid()
      reads this`errorlist, this`filelist, this`subjects, this`scanned
    {
      && (backuplevel == 0 || backuplevel == 1)
      && (forall item :: item in scanlist ==> Rooted(item))
      && WellFormed(disk)
      && IsExcluded(dbpath, excludelist)
      && SubjectsOk(subjects, scanned, excludelist, disk, hasher)
      && FilelistOk(filelist, subjects)
      && (forall k :: 0 <= k < |errorlist| ==>
            Lstat(disk, errorlist[k].0) == Failure(errorlist[k].1) && !IsExcluded(errorlist[k].0, excludelist))
    }

    /** The lists only grew and no subject was replaced. */
    ghost predicate Grew(scanned0: seq<Path>, subjects0: map<Path, SubjectFile>, filelist0: seq<Path>,
                         errorlist0: seq<(Path, string)>)
      reads this
    {
      && scanned0 <= scanned && filelist0 <= filelist && errorlist0 <= errorlist
      && (forall p :: p in subjects0 ==> p in subjects && subjects[p] == subjects0[p])
    }

    /** The SubjectFile _findfile builds for a path from the current store. */
    function Candidate(name: Path): SubjectFile
      reads this`virtualsdb
    {
      MakeSubject(name, disk, Lookup(virtualsdb, name))
    }

    /**
     * Nothing was missed: every scanned path that _helper or checksources
     * hands to _scanfile and that needs backup against the store is kept.
     */
    ghost predicate Complete()
      reads this`scanned, this`subjects, this`virtualsdb
    {
      Selects(scanned, subjects.Keys, disk, hasher, virtualsdb, excludelist)
    }

    /** An include entry checksources has dealt with. */
    predicate SourceDone(item: Path)
      reads this`scanned
    {
      Dealt(item, excludelist, disk, scanned)
    }

    constructor (scanlist: seq<Path>, excludes: seq<string>, dbpath: Path, backuplevel: int, db: Db,
                 disk: FileSystem, hasher: Hasher)
      requires backuplevel == 0 || backuplevel == 1
      requires forall item :: item in scanlist ==> Rooted(item)
      requires WellFormed(disk)
      ensures Valid() && Complete()
      ensures this.scanlist == scanlist && this.excludelist == PatternList(excludes, dbpath)
      ensures this.dbpath == dbpath && this.backuplevel == backuplevel
      ensures this.disk == disk && this.hasher == hasher && virtualsdb == db
      ensures errorlist == [] && filelist == [] && subjects == map[] && scanned == []
    {
      this.scanlist := scanlist;
      this.excludelist := PatternList(excludes, dbpath);
      this.dbpath := dbpath;
      this.backuplevel := backuplevel;
      this.disk := disk;
      this.hasher := hasher;
      virtualsdb := db;
      errorlist := [];
      filelist := [];
      subjects := map[];
      scanned := [];
    }

    /**
     * FileManager(scanlist, excludelist, virtualsdb, backuplevel): fails as
     * opening the store fails (unknown level, missing or invalid store);
     * otherwise a manager with empty lists over the opened store.
     */
    static method Open(scanlist: seq<Path>, excludes: seq<string>, dbpath: Path, backuplevel: int,
                       existing: Option<Db>, now: int, disk: FileSystem, hasher: Hasher)
      returns (r: Result<FileManager, OpenError>)
      requires forall item :: item in scanlist ==> Rooted(item)
      requires WellFormed(disk)
      ensures r.Failure? <==> OpenStore(backuplevel, existing, now).Failure?
      ensures r.Failure? ==> r.error == OpenStore(backuplevel, existing, now).error
      ensures r.Success? ==>
                && fresh(r.value) && r.value.Valid()
                && r.value.virtualsdb == OpenStore(backuplevel, existing, now).value.db
                && r.value.backuplevel == backuplevel && r.value.scanlist == scanlist
                && r.value.excludelist == PatternList(excludes, dbpath) && r.value.dbpath == dbpath
                && r.value.disk == disk && r.value.hasher == hasher
                && r.value.scanned == [] && r.value.subjects == map[]
                && r.value.filelist == [] && r.value.errorlist == []
    {
      var store := OpenStore(backuplevel, existing, now);
      if store.Failure? {
        return Failure(store.error);
      }
      var fm := new FileManager(scanlist, excludes, dbpath, backuplevel, store.value.db, disk, hasher);
      return Success(fm);
    }

    /** _dbput: add or replace one record. */
    method DbPut(key: string, value: string)
      requires Valid()
      modifies this`virtualsdb
      ensures Valid()
      ensures virtualsdb == old(virtualsdb)[key := value]
    {
      virtualsdb := virtualsdb[key := value];
    }

    /** _dbget: the stored value, None when the key is absent. */
    method DbGet(key: string) returns (value: Option<string>)
      ensures value.Some? <==> key in virtualsdb
      ensures value.Some? ==> value.value == virtualsdb[key]
    {
      if key in virtualsdb {
        value := Some(virtualsdb[key]);
      } else {
        value := None;
      }
    }

    /** _dbhas */
    method DbHas(key: string) returns (present: bool)
      ensures present <==> key in virtualsdb
    {
      present := key in virtualsdb;
    }

    /**
     * _findfile: the SubjectFile for a path, decoding the record stored under
     * its key; forced when there is none or it does not decode.
     */
    method FindFile(name: Path) returns (sf: SubjectFile)
      ensures sf == Candidate(name)
      ensures Consistent(sf) && sf.name == name && sf.physical == ReadDisk(name, disk)
      ensures sf.force <==> FileKey(name) !in virtualsdb || Unserialize(virtualsdb[FileKey(name)]).Failure?
      ensures sf.virtual.Some? ==> Unserialize(virtualsdb[FileKey(name)]) == Success(sf.virtual.value)
    {
      var data := DbGet(FileKey(name));
      sf := MakeSubject(name, disk, data);
    }

    /** _isexcluded: try the patterns in order and stop at the first that matches. */
    method IsExcludedPath(path: Path) returns (excluded: bool)
      ensures excluded <==> exists k :: 0 <= k < |excludelist| && Matches(excludelist[k], path)
      ensures excluded == IsExcluded(path, excludelist)
    {
      var k := 0;
      while k < |excludelist|
        invariant 0 <= k <= |excludelist|
        invariant forall j :: 0 <= j < k ==> !Matches(excludelist[j], path)
      {
        if Matches(excludelist[k], path) {
          return true;
        }
        k := k + 1;
      }
      return false;
    }

    /**
     * addparents(item, self.filelist): insert item's parents, top-down, and
     * item itself, each unless already listed; nothing when item's parent is
     * "/".
     */
    method AddParents(item: Path)
      requires Rooted(item)
      modifies this`filelist
      ensures filelist == WithParents(item, old(filelist))
      decreases |item|
    {
      var base := DirName(item);
      if base == "/" {
        return;
      }
      AddParents(base);
      if base !in filelist {
        filelist := filelist + [base];
      }
      if item !in filelist {
        filelist := filelist + [item];
      }
    }

    /** The selecting half of _scanfile: keep the SubjectFile and list its path with its parents. */
    method Keep(sf: SubjectFile)
      requires Valid() && Rooted(sf.name) && sf.name in scanned && !IsExcluded(sf.name, excludelist)
      requires sf.physical == ReadDisk(sf.name, disk) && Consistent(sf) && NeedsBackup(sf, hasher, disk)
      modifies this`subjects, this`filelist
      ensures Valid()
      ensures subjects == old(subjects)[sf.name := sf] && filelist == WithParents(sf.name, old(filelist))
    {
      SelectKeepsSubjectsOk(subjects, scanned, sf, excludelist, disk, hasher);
      SelectKeepsFilelistOk(filelist, subjects, sf.name, sf);
      subjects := subjects[sf.name := sf];
      AddParents(sf.name);
    }

    /**
     * _scanfile: skip an excluded or already scanned path; otherwise mark it
     * scanned and, when it needs backup, keep its SubjectFile and list it
     * with its parents.  Returns the selected path, if any.
     */
    method ScanFile(path: Path) returns (added: seq<Path>)
      requires Valid() && Complete() && Rooted(path)
      modifies this`scanned, this`subjects, this`filelist
      ensures Valid() && Complete()
      ensures Grew(old(scanned), old(subjects), old(filelist), errorlist) && subjects.Keys <= old(subjects).Keys + {path}
      ensures IsExcluded(path, excludelist) || path in old(scanned) ==>
                added == [] && scanned == old(scanned) && subjects == old(subjects) && filelist == old(filelist)
      ensures !IsExcluded(path, excludelist) && path !in old(scanned) ==> scanned == old(scanned) + [path]
      ensures !IsExcluded(path, excludelist) && path !in old(scanned) && Wanted(disk, hasher, virtualsdb, path) ==>
                && added == [path]
                && subjects == old(subjects)[path := Candidate(path)]
                && filelist == WithParents(path, old(filelist))
      ensures !IsExcluded(path, excludelist) && path !in old(scanned) && !Wanted(disk, hasher, virtualsdb, path) ==>
                added == [] && subjects == old(subjects) && filelist == old(filelist)
    {
      var excluded := IsExcludedPath(path);
      if excluded || path in scanned {
        return [];
      }
      ScanKeepsSubjectsOk(subjects, scanned, path, excludelist, disk, hasher);
      ghost var keys0 := subjects.Keys;
      scanned := scanned + [path];
      var sf := FindFile(path);
      if !NeedsBackup(sf, hasher, disk) {
        SelectsScan(old(scanned), keys0, subjects.Keys, disk, hasher, virtualsdb, excludelist, path);
        return [];
      }
      Keep(sf);
      SelectsScan(old(scanned), keys0, subjects.Keys, disk, hasher, virtualsdb, excludelist, path);
      return [sf.name];
    }

    /**
     * One name of _helper's loop: an excluded path is skipped, a path whose
     * lstat fails is recorded with its reason, any other non-directory goes
     * to _scanfile.
     */
    method Visit(fullpath: Path)
      requires Valid() && Complete() && Rooted(fullpath)
      modifies this`scanned, this`subjects, this`filelist, this`errorlist
      ensures Valid() && Complete()
      ensures Grew(old(scanned), old(subjects), old(filelist), old(errorlist))
      ensures errorlist == old(errorlist) + StatError(fullpath, excludelist, disk)
      ensures scanned == if Scannable(fullpath, excludelist, disk) && fullpath !in old(scanned)
                         then old(scanned) + [fullpath] else old(scanned)
      ensures Elems(scanned) == Elems(old(scanned)) + if Scannable(fullpath, excludelist, disk) then {fullpath} else {}
      ensures subjects.Keys == old(subjects).Keys +
                if Picked(fullpath, old(scanned), excludelist, disk, hasher, virtualsdb) then {fullpath} else {}
      ensures forall p :: p in subjects && p !in old(subjects) ==> subjects[p] == Candidate(p)
    {
      var excluded := IsExcludedPath(fullpath);
      if !excluded {
        var st := Lstat(disk, fullpath);
        if st.Failure? {
          errorlist := errorlist + [(fullpath, st.error)];
        } else if !IsDir(st.value.mode) {
          VisitFile(fullpath);
          return;
        }
      }
      assert !Scannable(fullpath, excludelist, disk);
    }

    /** The branch of Visit that hands a scannable path to _scanfile; errorlist is untouched. */
    method VisitFile(fullpath: Path)
      requires Valid() && Complete() && Rooted(fullpath) && Scannable(fullpath, excludelist, disk)
      modifies this`scanned, this`subjects, this`filelist
      ensures Valid() && Complete()
      ensures Grew(old(scanned), old(subjects), old(filelist), errorlist)
      ensures scanned == if fullpath !in old(scanned) then old(scanned) + [fullpath] else old(scanned)
      ensures Elems(scanned) == Elems(old(scanned)) + {fullpath}
      ensures subjects.Keys == old(subjects).Keys +
                if Picked(fullpath, old(scanned), excludelist, disk, hasher, virtualsdb) then {fullpath} else {}
      ensures forall p :: p in subjects && p !in old(subjects) ==> subjects[p] == Candidate(p)
    {
      ElemsSnoc(scanned, fullpath);
      var _ := ScanFile(fullpath);
    }

    /** What _helper's loop has done after the first i names, against the state it started from. */
    ghost predicate HelperDone(dirname: Path, names: seq<string>, i: nat, scanned0: seq<Path>,
                               subjects0: map<Path, SubjectFile>, filelist0: seq<Path>,
                               errorlist0: seq<(Path, string)>)
      requires i <= |names|
      reads this
    {
      && Grew(scanned0, subjects0, filelist0, errorlist0)
      && scanned0 + [dirname] <= scanned
      && errorlist == errorlist0 + StatErrors(excludelist, disk, dirname, names[..i])
      && Elems(scanned) == Elems(scanned0) + {dirname} + Scans(dirname, names[..i], excludelist, disk)
      && subjects.Keys == subjects0.Keys + Picks(dirname, names[..i], scanned0, excludelist, disk, hasher, virtualsdb)
      && (forall p :: p in subjects && p !in subjects0 ==> subjects[p] == Candidate(p))
    }

    /** One turn of _helper's loop: the name at index i. */
    method HelperStep(dirname: Path, names: seq<string>, i: nat, ghost scanned0: seq<Path>,
                      ghost subjects0: map<Path, SubjectFile>, ghost filelist0: seq<Path>,
                      ghost errorlist0: seq<(Path, string)>)
      requires Rooted(dirname) && i < |names| && ValidName(names[i])
      requires Valid() && Complete() && HelperDone(dirname, names, i, scanned0, subjects0, filelist0, errorlist0)
      modifies this`scanned, this`subjects, this`filelist, this`errorlist
      ensures Valid() && Complete()
      ensures HelperDone(dirname, names, i + 1, scanned0, subjects0, filelist0, errorlist0)
    {
      var fullpath := JoinPath(dirname, names[i]);
      TakeSnoc(names, i);
      StatErrorsSnoc(excludelist, disk, dirname, names[..i], names[i]);
      ScansSnoc(dirname, names[..i], names[i], excludelist, disk);
      ghost var keysMid := subjects.Keys;
      ghost var sMid := scanned;
      Visit(fullpath);
      PicksStep(subjects0.Keys, keysMid, subjects.Keys, scanned0, sMid, dirname, names[..i], names[i],
                excludelist, disk, hasher, virtualsdb);
      AppendAssoc(errorlist0, StatErrors(excludelist, disk, dirname, names[..i]), StatError(fullpath, excludelist, disk));
      UnionAssoc(Elems(scanned0) + {dirname}, Scans(dirname, names[..i], excludelist, disk),
                 if Scannable(fullpath, excludelist, disk) then {fullpath} else {});
    }

    /** The first thing _helper does: record dirname as scanned. */
    method HelperStart(dirname: Path)
      requires Valid() && Complete() && Rooted(dirname) && LstatDir(disk, dirname)
      modifies this`scanned
      ensures Valid() && Complete()
      ensures scanned == old(scanned) + [dirname]
      ensures Elems(scanned) == Elems(old(scanned)) + {dirname}
    {
      ScanKeepsSubjectsOk(subjects, scanned, dirname, excludelist, disk, hasher);
      ElemsSnoc(scanned, dirname);
      scanned := scanned + [dirname];
    }

    /**
     * _helper(dirname, names): record dirname as scanned, then for each name
     * in order skip the excluded path, record the path whose lstat fails
     * with its reason, and hand every other non-directory to _scanfile.
     */
    method Helper(dirname: Path, names: seq<string>)
      requires Valid() && Complete() && Rooted(dirname) && LstatDir(disk, dirname)
      requires forall n :: n in names ==> ValidName(n)
      modifies this`scanned, this`subjects, this`filelist, this`errorlist
      ensures Valid() && Complete()
      ensures Grew(old(scanned), old(subjects), old(filelist), old(errorlist))
      ensures old(scanned) + [dirname] <= scanned
      ensures errorlist == old(errorlist) + StatErrors(excludelist, disk, dirname, names)
      ensures Elems(scanned) == Elems(old(scanned)) + {dirname} + Scans(dirname, names, excludelist, disk)
      ensures subjects.Keys == old(subjects).Keys + Picks(dirname, names, old(scanned), excludelist, disk, hasher, virtualsdb)
      ensures forall p :: p in subjects && p !in old(subjects) ==> subjects[p] == Candidate(p)
    {
      HelperStart(dirname);
      assert names[..0] == [];
      assert Scans(dirname, [], excludelist, disk) == {};
      assert Picks(dirname, [], old(scanned), excludelist, disk, hasher, virtualsdb) == {};
      var i := 0;
      while i < |names|
        invariant 0 <= i <= |names|
        invariant Valid() && Complete()
        invariant HelperDone(dirname, names, i, old(scanned), old(subjects), old(filelist), old(errorlist))
      {
        HelperStep(dirname, names, i, old(scanned), old(subjects), old(filelist), old(errorlist));
        i := i + 1;
      }
      assert names[..i] == names;
    }

    /**
     * What the walk of top has done once _helper ran on its listing and the
     * first i listed paths were considered for descent.
     */
    ghost predicate WalkDone(top: Path, names: seq<string>, i: nat, scanned0: seq<Path>,
                             subjects0: map<Path, SubjectFile>, filelist0: seq<Path>,
                             errorlist0: seq<(Path, string)>)
      requires i <= |names|
      reads this
    {
      && Grew(scanned0, subjects0, filelist0, errorlist0)
      && Walked(disk, excludelist, top, names, i, scanned0, subjects0.Keys, errorlist0, scanned, subjects.Keys, errorlist)
    }

    /**
     * _scandir(path), that is os.path.walk(path, _helper): list the
     * directory (nothing happens when that fails), run _helper on the
     * listing, then descend, in listing order, into every listed path whose
     * lstat says directory, excluded or not.  Everything it records lies
     * below path, and everything it selects is a scannable listed path of
     * the walk that was not scanned before; the whole walk ends up scanned,
     * and every listed path of the walk that _scanfile selects is kept.  Both callers,
     * the descent of the walk and checksources, pass only a path whose lstat
     * says directory.
     */
    method ScanDir(top: Path)
      requires Valid() && Complete() && Rooted(top) && LstatDir(disk, top)
      modifies this`scanned, this`subjects, this`filelist, this`errorlist
      ensures Valid() && Complete()
      ensures Covered(Elems(scanned), ErrorSet(errorlist), disk, excludelist, top)
      ensures NewCovered(Elems(old(scanned)), Elems(scanned), ErrorSet(errorlist), disk, excludelist, {})
      ensures forall p :: InTree(disk, top, p) && Scannable(p, excludelist, disk) && Wanted(disk, hasher, virtualsdb, p) ==>
                p in subjects
      ensures Listing(disk, top).Some? ==>
                forall c :: (c in Children(top, Listing(disk, top).value) && Scannable(c, excludelist, disk) &&
                             Wanted(disk, hasher, virtualsdb, c)) ==> c in subjects
      ensures forall p :: InTree(disk, top, p) && !IsExcluded(p, excludelist) && Lstat(disk, p).Failure? ==>
                (p, Lstat(disk, p).error) in errorlist
      ensures Grew(old(scanned), old(subjects), old(filelist), old(errorlist))
      ensures Listing(disk, top).None? ==>
                scanned == old(scanned) && subjects == old(subjects) && filelist == old(filelist) && errorlist == old(errorlist)
      ensures Listing(disk, top).Some? ==> top in scanned
      ensures Listing(disk, top).Some? ==>
                forall c :: (c in Children(top, Listing(disk, top).value) &&
                             (Scannable(c, excludelist, disk) || Walkable(disk, c))) ==> c in scanned
      ensures AddedUnder(subjects.Keys, old(subjects).Keys, top)
      ensures AddedInTree(subjects.Keys, old(subjects).Keys, old(scanned), disk, excludelist, top)
      ensures EntriesUnder(errorlist, |old(errorlist)|, top)
      decreases Below(disk, top), 2
    {
      var listing := Listing(disk, top);
      if listing.None? {
        CoveredNoListing(Elems(scanned), ErrorSet(errorlist), disk, excludelist, top);
        WalkSelects(Elems(scanned), ErrorSet(errorlist), subjects.Keys, disk, hasher, virtualsdb, excludelist, top);
        WalkRecords(Elems(scanned), ErrorSet(errorlist), disk, excludelist, top);
        return;
      }
      var names := listing.value;
      ListedNamesValid(disk, top);
      Helper(top, names);
      WalkedStart(disk, excludelist, hasher, virtualsdb, top, names, old(scanned), old(subjects).Keys, old(errorlist),
                  scanned, subjects.Keys, errorlist);
      var i := 0;
      while i < |names|
        invariant 0 <= i <= |names|
        invariant Valid() && Complete()
        invariant WalkDone(top, names, i, old(scanned), old(subjects), old(filelist), old(errorlist))
      {
        WalkStep(top, names, i, old(scanned), old(subjects), old(filelist), old(errorlist));
        i := i + 1;
      }
      WalkedEnd(disk, excludelist, hasher, virtualsdb, top, names, old(scanned), old(subjects).Keys, old(errorlist),
                scanned, subjects.Keys, errorlist);
    }

    /** One listed path of the walk of top: descend into it when lstat says directory. */
    method WalkStep(top: Path, names: seq<string>, i: nat, ghost scanned0: seq<Path>,
                    ghost subjects0: map<Path, SubjectFile>, ghost filelist0: seq<Path>,
                    ghost errorlist0: seq<(Path, string)>)
      requires Rooted(top) && i < |names| && ValidName(names[i])
      requires Valid() && Complete() && WalkDone(top, names, i, scanned0, subjects0, filelist0, errorlist0)
      modifies this`scanned, this`subjects, this`filelist, this`errorlist
      ensures Valid() && Complete() && WalkDone(top, names, i + 1, scanned0, subjects0, filelist0, errorlist0)
      decreases Below(disk, top), 1
    {
      var child := JoinPath(top, names[i]);
      assert child == Children(top, names)[i];
      var st := Lstat(disk, child);
      if st.Success? && IsDir(st.value.mode) {
        Descend(top, names, i, scanned0, subjects0, filelist0, errorlist0);
      } else {
        NoDescent(top, names, i, scanned0, subjects0, filelist0, errorlist0);
      }
    }

    /** A listed path that lstat does not call a directory is not descended into: nothing changes. */
    lemma NoDescent(top: Path, names: seq<string>, i: nat, scanned0: seq<Path>, subjects0: map<Path, SubjectFile>,
                    filelist0: seq<Path>, errorlist0: seq<(Path, string)>)
      requires i < |names| && !LstatDir(disk, Children(top, names)[i])
      requires WalkDone(top, names, i, scanned0, subjects0, filelist0, errorlist0)
      ensures WalkDone(top, names, i + 1, scanned0, subjects0, filelist0, errorlist0)
    {
      WalkCoveredStep(Elems(scanned0), Elems(scanned), Elems(scanned), ErrorSet(errorlist), ErrorSet(errorlist),
                      disk, excludelist, top, names, i);
    }

    /** The descent of WalkStep: listed path i is a directory, so _scandir walks it. */
    method Descend(top: Path, names: seq<string>, i: nat, ghost scanned0: seq<Path>,
                   ghost subjects0: map<Path, SubjectFile>, ghost filelist0: seq<Path>,
                   ghost errorlist0: seq<(Path, string)>)
      requires Rooted(top) && i < |names| && ValidName(names[i]) && LstatDir(disk, JoinPath(top, names[i]))
      requires Valid() && Complete() && WalkDone(top, names, i, scanned0, subjects0, filelist0, errorlist0)
      modifies this`scanned, this`subjects, this`filelist, this`errorlist
      ensures Valid() && Complete() && WalkDone(top, names, i + 1, scanned0, subjects0, filelist0, errorlist0)
      decreases Below(disk, top), 0
    {
      var child := JoinPath(top, names[i]);
      assert child == Children(top, names)[i];
      BelowShrinks(disk, top, child);
      ghost var scannedMid := scanned;
      ghost var subjectsMid := subjects;
      ghost var errorsMid := errorlist;
      ScanDir(child);
      WalkedDescend(disk, excludelist, top, names, i, scanned0, subjects0.Keys, errorlist0,
                    scannedMid, subjectsMid.Keys, errorsMid, scanned, subjects.Keys, errorlist);
    }

    /** What checksources has done once it went through the first i include entries. */
    ghost predicate SourcesDone(i: nat, scanned0: seq<Path>, subjects0: map<Path, SubjectFile>,
                                filelist0: seq<Path>, errorlist0: seq<(Path, string)>)
      requires i <= |scanlist|
      reads this
    {
      && Grew(scanned0, subjects0, filelist0, errorlist0)
      && Sourced(disk, excludelist, scanlist, i, scanned0, subjects0.Keys, errorlist0, scanned, subjects.Keys, errorlist)
    }

    /**
     * One include entry of checksources: skip it when excluded or already
     * scanned; otherwise lstat it, unguarded, and walk it when it is a
     * directory or hand it to _scanfile when it is not.  The strerror of a
     * failing lstat is returned as the OSError that escapes.
     */
    method SourceStep(i: nat, ghost scanned0: seq<Path>, ghost subjects0: map<Path, SubjectFile>,
                      ghost filelist0: seq<Path>, ghost errorlist0: seq<(Path, string)>)
      returns (raised: Option<string>)
      requires i < |scanlist|
      requires Valid() && Complete() && SourcesDone(i, scanned0, subjects0, filelist0, errorlist0)
      modifies this`scanned, this`subjects, this`filelist, this`errorlist
      ensures Valid() && Complete()
      ensures raised.None? ==> SourcesDone(i + 1, scanned0, subjects0, filelist0, errorlist0)
      ensures raised.Some? ==>
                && scanned == old(scanned) && subjects == old(subjects)
                && filelist == old(filelist) && errorlist == old(errorlist)
                && !IsExcluded(scanlist[i], excludelist) && scanlist[i] !in scanned
                && Lstat(disk, scanlist[i]) == Failure(raised.value)
    {
      var item := scanlist[i];
      var excluded := IsExcludedPath(item);
      if excluded || item in scanned {
        forall j | 0 <= j < i + 1
          ensures Dealt(scanlist[j], excludelist, disk, scanned)
        {
        }
        SourcesCoveredStep(scanlist, i, scanned0, Elems(scanned), Elems(scanned), ErrorSet(errorlist), ErrorSet(errorlist),
                           disk, excludelist);
        return None;
      }
      var st := Lstat(disk, item);
      if st.Failure? {
        return Some(st.error);
      }
      if IsDir(st.value.mode) {
        WalkSource(i, scanned0, subjects0, filelist0, errorlist0);
      } else {
        ScanSource(i, scanned0, subjects0, filelist0, errorlist0);
      }
      return None;
    }

    /** The directory branch of checksources: _scandir on include entry i. */
    method WalkSource(i: nat, ghost scanned0: seq<Path>, ghost subjects0: map<Path, SubjectFile>,
                      ghost filelist0: seq<Path>, ghost errorlist0: seq<(Path, string)>)
      requires i < |scanlist| && !IsExcluded(scanlist[i], excludelist) && scanlist[i] !in scanned
      requires Lstat(disk, scanlist[i]).Success? && IsDir(Lstat(disk, scanlist[i]).value.mode)
      requires Valid() && Complete() && SourcesDone(i, scanned0, subjects0, filelist0, errorlist0)
      modifies this`scanned, this`subjects, this`filelist, this`errorlist
      ensures Valid() && Complete() && SourcesDone(i + 1, scanned0, subjects0, filelist0, errorlist0)
    {
      ghost var scannedMid := scanned;
      ghost var keysMid := subjects.Keys;
      ghost var errorsMid := errorlist;
      ScanDir(scanlist[i]);
      SourcedWalk(disk, excludelist, scanlist, i, scanned0, subjects0.Keys, errorlist0,
                  scannedMid, keysMid, errorsMid, scanned, subjects.Keys, errorlist);
    }

    /** The other branch of checksources: _scanfile on include entry i. */
    method ScanSource(i: nat, ghost scanned0: seq<Path>, ghost subjects0: map<Path, SubjectFile>,
                      ghost filelist0: seq<Path>, ghost errorlist0: seq<(Path, string)>)
      requires i < |scanlist| && !IsExcluded(scanlist[i], excludelist) && scanlist[i] !in scanned
      requires Lstat(disk, scanlist[i]).Success? && !IsDir(Lstat(disk, scanlist[i]).value.mode)
      requires Valid() && Complete() && SourcesDone(i, scanned0, subjects0, filelist0, errorlist0)
      modifies this`scanned, this`subjects, this`filelist, this`errorlist
      ensures Valid() && Complete() && SourcesDone(i + 1, scanned0, subjects0, filelist0, errorlist0)
    {
      ghost var scannedMid := scanned;
      ghost var keysMid := subjects.Keys;
      var _ := ScanFile(scanlist[i]);
      SourcedScan(disk, excludelist, scanlist, i, scanned0, subjects0.Keys, errorlist0,
                  scannedMid, keysMid, scanned, subjects.Keys, errorlist);
    }

    /**
     * checksources: go through the include list in order.  When no lstat of
     * an include entry fails, every entry is excluded, scanned, or a
     * directory whose listing failed; otherwise the first failing entry's
     * strerror escapes, with the entries before it dealt with.  Everything
     * selected or recorded is an include entry or lies below one; what is
     * selected is scannable, was not scanned before, and is an include entry
     * or a listed path of the walk of one; the database file is never
     * selected.
     */
    method CheckSources() returns (raised: Option<(Path, string)>)
      requires Valid() && Complete()
      modifies this`scanned, this`subjects, this`filelist, this`errorlist
      ensures Valid() && Complete()
      ensures NewCovered(Elems(old(scanned)), Elems(scanned), ErrorSet(errorlist), disk, excludelist, {})
      ensures raised.None? ==>
                forall j :: (0 <= j < |scanlist| && !IsExcluded(scanlist[j], excludelist) && scanlist[j] !in old(scanned) &&
                             LstatDir(disk, scanlist[j])) ==> Covered(Elems(scanned), ErrorSet(errorlist), disk, excludelist, scanlist[j])
      ensures raised.None? ==>
                forall item, p :: (item in scanlist && !IsExcluded(item, excludelist) && item !in old(scanned) &&
                                   LstatDir(disk, item) && InTree(disk, item, p) && Scannable(p, excludelist, disk) &&
                                   Wanted(disk, hasher, virtualsdb, p)) ==> p in subjects
      ensures raised.None? ==>
                forall item, p :: (item in scanlist && !IsExcluded(item, excludelist) && item !in old(scanned) &&
                                   LstatDir(disk, item) && InTree(disk, item, p) && !IsExcluded(p, excludelist) &&
                                   Lstat(disk, p).Failure?) ==> (p, Lstat(disk, p).error) in errorlist
      ensures raised.None? ==>
                forall item :: item in scanlist && Scannable(item, excludelist, disk) && Wanted(disk, hasher, virtualsdb, item) ==>
                  item in subjects
      ensures Grew(old(scanned), old(subjects), old(filelist), old(errorlist))
      ensures raised.None? ==> forall item :: item in scanlist ==> SourceDone(item)
      ensures raised.Some? ==>
                exists k :: 0 <= k < |scanlist| && scanlist[k] == raised.value.0
                  && (forall j :: 0 <= j < k ==> SourceDone(scanlist[j]))
                  && !IsExcluded(scanlist[k], excludelist) && scanlist[k] !in scanned
                  && Lstat(disk, scanlist[k]) == Failure(raised.value.1)
      ensures AddedWithin(subjects.Keys, old(subjects).Keys, scanlist)
      ensures AddedFromSources(subjects.Keys, old(subjects).Keys, old(scanned), disk, excludelist, scanlist)
      ensures EntriesWithin(errorlist, |old(errorlist)|, scanlist)
      ensures dbpath !in subjects
    {
      var i := 0;
      while i < |scanlist|
        invariant 0 <= i <= |scanlist|
        invariant Valid() && Complete()
        invariant SourcesDone(i, old(scanned), old(subjects), old(filelist), old(errorlist))
      {
        var err := SourceStep(i, old(scanned), old(subjects), old(filelist), old(errorlist));
        if err.Some? {
          return Some((scanlist[i], err.value));
        }
        i := i + 1;
      }
      SourcesSelect(scanlist, old(scanned), Elems(scanned), ErrorSet(errorlist), subjects.Keys, disk, hasher, virtualsdb,
                    excludelist);
      return None;
    }

    /**
     * notifywritten(path): at level 0, once the archive is written, store
     * the record of a selected path under its key; any other call does
     * nothing.  A subject whose lstat failed has no record: serializing it
     * raises TypeError, reported here as raised.
     */
    method NotifyWritten(path: Path) returns (raised: bool)
      requires Valid()
      modifies this`virtualsdb
      ensures Valid()
      ensures raised <==> backuplevel == 0 && path in subjects && SerializeSubject(subjects[path], hasher, disk).None?
      ensures backuplevel == 0 && path in subjects && !raised ==>
                virtualsdb == old(virtualsdb)[FileKey(path) := SerializeSubject(subjects[path], hasher, disk).value]
      ensures !(backuplevel == 0 && path in subjects) || raised ==> virtualsdb == old(virtualsdb)
    {
      if backuplevel == 0 && path in subjects {
        var sf := subjects[path];
        var record := SerializeSubject(sf, hasher, disk);
        if record.None? {
          return true;
        }
        DbPut(FileKey(path), record.value);
      }
      return false;
    }
  }
}

=== FILE: paths.dfy ===
/**
 * POSIX path strings and the two os.path helpers the selection engine uses:
 * dirname (to find a path's parent) and join (to build a directory entry's
 * full path from the directory and the entry's name).
 */
module Paths {

  type Path = string

  const SEP: char := '/'

  /**
   * An absolute path that does not start with "//".  Every path the engine
   * meets is of this form: include entries are absolute, and joining a
   * directory entry name onto such a path keeps it so.  On "//x" the
   * dirname chain stops at "//" and never reaches "/", so bakonf's
   * addparents recurses without end (see DoubleSlashStuck).
   */
  predicate Rooted(p: Path)
  {
    |p| > 0 && p[0] == SEP && (|p| == 1 || p[1] != SEP)
  }

  /** A name os.listdir can return: non-empty and without a separator. */
  predicate ValidName(n: string)
  {
    |n| > 0 && SEP !in n
  }

  predicate AllSeps(s: string)
  {
    forall i :: 0 <= i < |s| ==> s[i] == SEP
  }

  /** p is a (not necessarily proper) string prefix of q. */
  predicate StartsWith(q: string, p: string)
  {
    |p| <= |q| && q[..|p|] == p
  }

  /** Index of the last separator in p, or -1 (str.rfind). */
  function LastSep(p: Path): (i: int)
    ensures -1 <= i < |p|
    ensures i >= 0 ==> p[i] == SEP
    ensures forall j :: i < j < |p| ==> p[j] != SEP
  {
    if |p| == 0 then -1
    else if p[|p| - 1] == SEP then |p| - 1
    else LastSep(p[..|p| - 1])
  }

  /** str.rstrip('/'). */
  function StripTrailingSeps(s: string): (r: string)
    ensures StartsWith(s, r)
    ensures |r| == 0 || r[|r| - 1] != SEP
    ensures forall j :: |r| <= j < |s| ==> s[j] == SEP
  {
    if |s| > 0 && s[|s| - 1] == SEP then StripTrailingSeps(s[..|s| - 1]) else s
  }

  /**
   * os.path.dirname: everything up to the last separator, with trailing
   * separators removed unless nothing but separators is left.
   */
  function DirName(p: Path): (r: Path)
    ensures StartsWith(p, r)
    ensures Rooted(p) ==> Rooted(r)
    ensures Rooted(p) && p != "/" ==> |r| < |p|
    ensures Rooted(p) && p == "/" ==> r == "/"
  {
    var head := p[..LastSep(p) + 1];
    if head != [] && !AllSeps(head) then
      var r := StripTrailingSeps(head);
      r
    else
      head
  }

  /** os.path.join with two arguments. */
  function JoinPath(a: Path, b: string): (r: Path)
    ensures ValidName(b) ==> StartsWith(r, a) && |r| > |a|
    ensures Rooted(a) && ValidName(b) ==> Rooted(r)
  {
    if |b| > 0 && b[0] == SEP then b
    else if a == [] || a[|a| - 1] == SEP then a + b
    else a + [SEP] + b
  }

  /**
   * The directories the dirname chain passes through below "/", top-down,
   * followed by p itself: Chain("/a/b/c") == ["/a", "/a/b", "/a/b/c"].
   */
  function Chain(p: Path): (c: seq<Path>)
    requires Rooted(p)
    ensures p == "/" <==> c == []
    ensures c != [] ==> c[|c| - 1] == p
    ensures forall x :: x in c ==> Rooted(x) && StartsWith(p, x) && x != "/"
    decreases |p|
  {
    if p == "/" then [] else Chain(DirName(p)) + [p]
  }

  /** The path reached after taking dirname k times. */
  function Ancestor(p: Path, k: nat): Path
    decreases k
  {
    if k == 0 then p else Ancestor(DirName(p), k - 1)
  }

  /**
   * An absolute path with its leading separators collapsed to one, which
   * names the same file on Linux; every result is Rooted, and Rooted paths
   * are left alone.
   */
  function Canonical(p: Path): (r: Path)
    requires |p| > 0 && p[0] == SEP
    ensures Rooted(r) && |r| <= |p|
    ensures Rooted(p) ==> r == p
    decreases |p|
  {
    if |p| > 1 && p[1] == SEP then Canonical(p[1..]) else p
  }

  // ---------------------------------------------------------------------
  // Lemmas

  lemma StartsWithTransitive(a: string, b: string, c: string)
    requires StartsWith(a, b) && StartsWith(b, c)
    ensures StartsWith(a, c)
  {
    assert a[..|c|] == a[..|b|][..|c|];
  }

  /** The chain of any path on p's chain is a prefix of p's chain. */
  lemma {:induction false} ChainMember(p: Path, x: Path)
    requires Rooted(p) && x in Chain(p)
    ensures Chain(x) <= Chain(p)
    decreases |p|
  {
    if x != p {
      var q := DirName(p);
      assert x in Chain(q);
      ChainMember(q, x);
    }
  }

  /**
   * As written, addparents("//" + name) asks for dirname("//" + name) ==
   * "//" and from there for dirname("//") == "//" again: every ancestor
   * after the first step is "//", so the test for "/" that ends the
   * recursion never succeeds.
   */
  lemma {:induction false} DoubleSlashStuck(name: string, k: nat)
    requires ValidName(name) && k >= 1
    ensures Ancestor("//" + name, k) == "//"
    ensures !Rooted("//" + name)
  {
    var p := "//" + name;
    LastSepAfter("//", name);
    assert p[..2] == "//";
    assert DirName(p) == "//";
    DoubleSlashFixed(k - 1);
  }

  lemma {:induction false} LastSepAfter(a: string, name: string)
    requires |a| > 0 && a[|a| - 1] == SEP && SEP !in name
    ensures LastSep(a + name) == |a| - 1
    decreases |name|
  {
    if |name| > 0 {
      assert (a + name)[..|a + name| - 1] == a + name[..|name| - 1];
      LastSepAfter(a, name[..|name| - 1]);
    } else {
      assert a + name == a;
    }
  }

  lemma {:induction false} DoubleSlashFixed(k: nat)
    ensures Ancestor("//", k) == "//"
  {
    assert LastSep("//") == 1;
    assert DirName("//") == "//" by {
      assert AllSeps("//");
    }
    if k > 0 {
      DoubleSlashFixed(k - 1);
    }
  }

  /**
   * The corrected behaviour: from a Rooted path (what Canonical makes of
   * any absolute path) the dirname chain reaches "/" within |p| steps, so
   * the parent insertion stops.
   */
  lemma {:induction false} ReachesRoot(p: Path, k: nat)
    requires Rooted(p) && k >= |p|
    ensures Ancestor(p, k) == "/"
    decreases k
  {
    if p == "/" {
      if k == 1 {
        assert Ancestor(p, k) == Ancestor("/", 0);
      } else {
        ReachesRoot(DirName(p), k - 1);
      }
    } else {
      ReachesRoot(DirName(p), k - 1);
    }
  }
}

=== FILE: selection.dfy ===
/**
 * The ordered file list handed to the archive writer: every path it holds
 * appears once, and the parent of every path (up to, not including, "/")
 * appears before it, so that directories are archived before their contents.
 */
module Selection {
  import opened Paths

  predicate NoDup(l: seq<Path>)
  {
    forall i, j :: 0 <= i < j < |l| ==> l[i] != l[j]
  }

  /** Parents before children: each entry's parent, unless it is "/", comes earlier. */
  predicate Ordered(l: seq<Path>)
  {
    forall i {:trigger DirName(l[i])} :: 0 <= i < |l| && DirName(l[i]) != "/" ==> DirName(l[i]) in l[..i]
  }

  /** Append x unless the list already holds it. */
  function AppendNew(l: seq<Path>, x: Path): (r: seq<Path>)
    ensures l <= r && x in r
    ensures forall y :: y in r ==> y in l || y == x
    ensures NoDup(l) ==> NoDup(r)
    ensures Ordered(l) && (DirName(x) != "/" ==> DirName(x) in l) ==> Ordered(r)
  {
    if x in l then l else l + [x]
  }

  /**
   * addparents(item, lst): insert the parents of item top-down, then item,
   * skipping what the list already holds.  When item's parent is "/" the
   * list is returned as it is, so item itself is not inserted.
   */
  function WithParents(item: Path, lst: seq<Path>): (r: seq<Path>)
    requires Rooted(item)
    ensures lst <= r
    ensures forall x :: x in r ==> x in lst || x in Chain(item)
    ensures DirName(item) != "/" ==> forall x :: x in Chain(item) ==> x in r
    ensures DirName(item) == "/" ==> r == lst
    ensures NoDup(lst) ==> NoDup(r)
    ensures Ordered(lst) ==> Ordered(r)
    decreases |item|
  {
    var base := DirName(item);
    if base == "/" then lst
    else
      var l1 := WithParents(base, lst);
      assert Chain(item) == Chain(base) + [item];
      assert DirName(base) != "/" ==> DirName(base) in l1 by {
        if DirName(base) != "/" {
          assert Chain(base) == Chain(DirName(base)) + [base];
        }
      }
      var l2 := AppendNew(l1, base);
      AppendNew(l2, item)
  }

  // ---------------------------------------------------------------------
  // Lemmas

  /** Nothing is inserted when item and all its parents are already present. */
  lemma {:induction false} WithParentsNoop(item: Path, lst: seq<Path>)
    requires Rooted(item)
    requires forall x :: x in Chain(item) ==> x in lst
    ensures WithParents(item, lst) == lst
    decreases |item|
  {
    var base := DirName(item);
    if base != "/" {
      assert Chain(item) == Chain(base) + [item];
      WithParentsNoop(base, lst);
    }
  }

  /** addparents is idempotent: a second call with the same item changes nothing. */
  lemma WithParentsIdempotent(item: Path, lst: seq<Path>)
    requires Rooted(item)
    ensures WithParents(item, WithParents(item, lst)) == WithParents(item, lst)
  {
    var r := WithParents(item, lst);
    if DirName(item) != "/" {
      WithParentsNoop(item, r);
    }
  }

  /**
   * In an ordered list every path's whole chain of parents below "/" is
   * present, at or before the path's own position.
   */
  lemma {:induction false} OrderedHoldsAncestors(l: seq<Path>, i: nat)
    requires Ordered(l) && i < |l| && Rooted(l[i])
    ensures forall a :: a in Chain(l[i]) ==> a in l[..i + 1]
    decreases |l[i]|
  {
    var p := l[i];
    var base := DirName(p);
    if p != "/" && base != "/" {
      assert Chain(p) == Chain(base) + [p];
      assert base in l[..i];
      var j :| 0 <= j < i && l[j] == base;
      OrderedHoldsAncestors(l, j);
      assert l[..j + 1] <= l[..i + 1];
    }
  }
}

=== FILE: store.dfy ===
/**
 * The fingerprint database: a string-to-string key/value store holding two
 * administrative keys (format version and creation date) and one record per
 * archived path under the key "file:/" + path.  Opening it checks or writes
 * the administrative keys according to the backup level.
 */
module Store {
  import opened Wrappers
  import opened PyText
  import opened Paths

  type Db = map<string, string>

  const DB_VERSION: string := "1"
  const VERSION_KEY: string := "bakonf:db_version"
  const DATE_KEY: string := "bakonf:db_date"

  /** A database older than this many seconds draws a warning at level 1. */
  const STALE_SECONDS: int := 8 * 86400

  predicate IsAdminKey(k: string) { k == VERSION_KEY || k == DATE_KEY }

  /**
   * The key of a path's record, "file:/%s" % path; an absolute path gives
   * "file://" followed by the path without its leading slash.  Distinct
   * paths get distinct keys, none of which is an administrative key.
   */
  function FileKey(path: Path): (k: string)
    ensures |k| == |path| + 6 && k[6..] == path
    ensures !IsAdminKey(k)
  {
    var k := "file:/" + path;
    assert k[4] == ':' && VERSION_KEY[4] != ':' && DATE_KEY[4] != ':';
    k
  }

  datatype OpenError =
    | UnknownLevel(level: int)     // ValueError("Unknown backup level")
    | CannotOpen                   // the store to read does not exist
    | InvalidContents              // an administrative key is missing
    | InvalidVersion(found: string)
    | InvalidDate(text: string)    // float() rejects the stored date

  /**
   * time.time() - dbtime > 8 * 86400 evaluated in floating point: an
   * infinite date in the future and NaN never compare greater, one in the
   * past always does.
   */
  predicate OlderThanLimit(now: int, date: PyFloat)
  {
    match date
    case Finite(t) => now as real - t > STALE_SECONDS as real
    case Infinite(negative) => negative
    case NaN => false
  }

  /** The store after opening it, and whether the staleness warning was logged. */
  datatype Opened = Opened(db: Db, stale: bool)

  /**
   * Opening the store at a backup level, with the clock reading now (whole
   * seconds).  Level 0 creates a new store holding only the version and the
   * date; level 1 reads an existing one and checks that both administrative
   * keys are present, that the version is DB_VERSION and that the date is a
   * number float() accepts, warning (without failing) when it is more than
   * eight days old.
   */
  function OpenStore(level: int, existing: Option<Db>, now: int): (r: Result<Opened, OpenError>)
    ensures level != 0 && level != 1 ==> r == Failure(UnknownLevel(level))
    ensures level == 0 ==>
              r == Success(Opened(map[VERSION_KEY := DB_VERSION, DATE_KEY := IntStr(now)], false))
    ensures level == 1 && r.Success? ==>
              && existing.Some? && r.value.db == existing.value
              && VERSION_KEY in r.value.db && r.value.db[VERSION_KEY] == DB_VERSION
              && DATE_KEY in r.value.db && ParseFloat(r.value.db[DATE_KEY]).Some?
              && (r.value.stale <==> OlderThanLimit(now, ParseFloat(r.value.db[DATE_KEY]).value))
    ensures (level == 1 && existing.Some? && VERSION_KEY in existing.value && DATE_KEY in existing.value &&
             existing.value[VERSION_KEY] == DB_VERSION && ParseFloat(existing.value[DATE_KEY]).Some?)
            ==> r.Success?
    ensures level == 1 && existing.None? ==> r == Failure(CannotOpen)
    ensures (level == 1 && existing.Some? && (VERSION_KEY !in existing.value || DATE_KEY !in existing.value))
            ==> r == Failure(InvalidContents)
    ensures (level == 1 && existing.Some? && VERSION_KEY in existing.value && DATE_KEY in existing.value &&
             existing.value[VERSION_KEY] == DB_VERSION && ParseFloat(existing.value[DATE_KEY]).None?)
            ==> r == Failure(InvalidDate(existing.value[DATE_KEY]))
    ensures (level == 1 && existing.Some? && VERSION_KEY in existing.value && DATE_KEY in existing.value &&
             existing.value[VERSION_KEY] != DB_VERSION)
            ==> r == Failure(InvalidVersion(existing.value[VERSION_KEY]))
  {
    if level == 0 then
      Success(Opened(map[VERSION_KEY := DB_VERSION, DATE_KEY := IntStr(now)], false))
    else if level != 1 then Failure(UnknownLevel(level))
    else if existing.None? then Failure(CannotOpen)
    else
      var db := existing.value;
      if VERSION_KEY !in db || DATE_KEY !in db then Failure(InvalidContents)
      else if db[VERSION_KEY] != DB_VERSION then Failure(InvalidVersion(db[VERSION_KEY]))
      else match ParseFloat(db[DATE_KEY])
        case None => Failure(InvalidDate(db[DATE_KEY]))
        case Some(date) => Success(Opened(db, OlderThanLimit(now, date)))
  }

  /**
   * A store written at level 0 at time created, whatever records were added
   * to it since, opens at level 1, warning exactly when more than eight days
   * have passed.
   */
  lemma ReopenAfterRebuild(created: int, db: Db, now: int)
    requires VERSION_KEY in db && DATE_KEY in db
    requires db[VERSION_KEY] == OpenStore(0, None, created).value.db[VERSION_KEY]
    requires db[DATE_KEY] == OpenStore(0, None, created).value.db[DATE_KEY]
    ensures OpenStore(1, Some(db), now) == Success(Opened(db, now - created > STALE_SECONDS))
  {
    IntStrAsFloat(created);
  }
}

=== FILE: subject.dfy ===
/**
 * SubjectFile: one path under consideration, pairing the state just read
 * from disk with the state decoded from the database record (if any), and
 * the decision whether the path needs to go into the backup.
 */
module Subjects {
  import opened Wrappers
  import opened Paths
  import opened Disk
  import opened FileStates

  /**
   * force is set when there was no record or the record could not be
   * decoded; virtual is present exactly when force is not set.
   */
  datatype SubjectFile = SubjectFile(name: Path, physical: FileState, virtual: Option<FileState>, force: bool)

  predicate Consistent(sf: SubjectFile)
  {
    && !sf.physical.Virtual?
    && (sf.force <==> sf.virtual.None?)
    && (sf.virtual.Some? ==> sf.virtual.value.Virtual?)
  }

  /**
   * SubjectFile(name, virtualdata): read the physical state; decode the
   * record when one is given, and fall back to forcing the backup when
   * there is none or it does not decode.
   */
  function MakeSubject(name: Path, fs: FileSystem, virtualdata: Option<string>): (sf: SubjectFile)
    ensures Consistent(sf) && sf.name == name && sf.physical == ReadDisk(name, fs)
    ensures sf.force <==> virtualdata.None? || Unserialize(virtualdata.value).Failure?
    ensures sf.virtual.Some? ==> Unserialize(virtualdata.value) == Success(sf.virtual.value)
  {
    var physical := ReadDisk(name, fs);
    if virtualdata.None? then SubjectFile(name, physical, None, true)
    else match Unserialize(virtualdata.value)
      case Failure(_) => SubjectFile(name, physical, None, true)
      case Success(v) => SubjectFile(name, physical, Some(v), false)
  }

  /** needsbackup: forced, or the decoded state differs from the physical one. */
  predicate NeedsBackup(sf: SubjectFile, h: Hasher, fs: FileSystem)
    requires Consistent(sf)
  {
    sf.force || NotEquals(sf.virtual.value, sf.physical, h, fs).value
  }

  /** serialize: the record of the physical state, the one to store after archiving. */
  function SerializeSubject(sf: SubjectFile, h: Hasher, fs: FileSystem): (r: Option<string>)
    requires Consistent(sf)
    ensures r.None? <==> sf.physical.Forced? && sf.physical.partial.None?
  {
    Serialize(sf.physical, h, fs)
  }

  /** needsbackup under the comparison the __eq__ docstring describes. */
  predicate NeedsBackupIntended(sf: SubjectFile, h: Hasher, fs: FileSystem)
    requires Consistent(sf)
  {
    sf.force || !EqualsIntended(sf.virtual.value, sf.physical, h, fs).value
  }

  // ---------------------------------------------------------------------
  // Lemmas

  /**
   * The selection rule: a path is left out exactly when its record decodes,
   * the path is a regular file now and in the record, and size and both
   * digests agree.  Everything else (no record, a corrupt record, a failed
   * read, a symbolic link, any change of type, size or digest) selects it.
   */
  lemma NeedsBackupCharacterization(name: Path, fs: FileSystem, data: Option<string>, h: Hasher)
    ensures NeedsBackup(MakeSubject(name, fs, data), h, fs) <==>
              !(data.Some? && Unserialize(data.value).Success? &&
                var v := Unserialize(data.value).value;
                var p := ReadDisk(name, fs);
                p.Physical? && IsReg(v.mode) && IsReg(p.st.mode) && v.size == p.st.size &&
                HashPair(v, h, fs) == HashPair(p, h, fs))
  {
    var sf := MakeSubject(name, fs, data);
    if !sf.force {
      NotEqualsCharacterization(sf.virtual.value, sf.physical, h, fs);
    }
  }

  /**
   * The incremental no-op: a regular file whose record was written from the
   * same disk state is not selected again.
   */
  lemma UnchangedFileNotReselected(name: Path, fs: FileSystem, h: Hasher)
    requires Lstat(fs, name).Success? && IsReg(Lstat(fs, name).value.mode)
    requires NoNul(name) && HasherOk(h)
    ensures Serialize(ReadDisk(name, fs), h, fs).Some?
    ensures !NeedsBackup(MakeSubject(name, fs, Serialize(ReadDisk(name, fs), h, fs)), h, fs)
  {
    var p := ReadDisk(name, fs);
    PhysicalRoundTrip(p, h, fs);
    NeedsBackupCharacterization(name, fs, Serialize(p, h, fs), h);
  }

  /**
   * A record written before a change of contents: when the size or either
   * digest of the regular file differs, the file is selected again.
   */
  lemma ChangedFileReselected(name: Path, before: FileSystem, after: FileSystem, h: Hasher)
    requires Lstat(before, name).Success? && IsReg(Lstat(before, name).value.mode)
    requires Lstat(after, name).Success? && IsReg(Lstat(after, name).value.mode)
    requires NoNul(name) && HasherOk(h)
    requires Lstat(before, name).value.size != Lstat(after, name).value.size ||
             ComputeHashes(name, h, before) != ComputeHashes(name, h, after)
    ensures Serialize(ReadDisk(name, before), h, before).Some?
    ensures NeedsBackup(MakeSubject(name, after, Serialize(ReadDisk(name, before), h, before)), h, after)
  {
    var p := ReadDisk(name, before);
    PhysicalRoundTrip(p, h, before);
    NeedsBackupCharacterization(name, after, Serialize(p, h, before), h);
  }

  /**
   * A change of type between the run that wrote the record and this one
   * (a regular file replaced by a symbolic link or the other way round)
   * always selects the path.
   */
  lemma TypeChangeReselected(name: Path, before: FileSystem, after: FileSystem, h: Hasher)
    requires Lstat(before, name).Success? && Lstat(after, name).Success?
    requires IsReg(Lstat(before, name).value.mode) != IsReg(Lstat(after, name).value.mode)
    requires NoNul(name) && HasherOk(h)
    requires Lstat(before, name).value.target.Some? ==> NoNul(Lstat(before, name).value.target.value)
    ensures NeedsBackup(MakeSubject(name, after, Serialize(ReadDisk(name, before), h, before)), h, after)
  {
    var p := ReadDisk(name, before);
    var data := Serialize(p, h, before);
    NeedsBackupCharacterization(name, after, data, h);
    if p.Physical? {
      PhysicalRoundTrip(p, h, before);
    } else {
      ForcedRoundTrip(p, h, before);
    }
  }

  /**
   * A symbolic link is selected on every run, whatever record is stored:
   * the decoded user and group are strings and never equal the integer ids
   * read from disk.
   */
  lemma SymlinkAlwaysReselected(name: Path, fs: FileSystem, data: Option<string>, h: Hasher)
    requires Lstat(fs, name).Success? && IsLnk(Lstat(fs, name).value.mode)
    ensures NeedsBackup(MakeSubject(name, fs, data), h, fs)
  {
    NeedsBackupCharacterization(name, fs, data, h);
  }

  /**
   * Under the intended comparison, a symbolic link whose record was written
   * from the same disk state is not selected again.
   */
  lemma UnchangedSymlinkNotReselected(name: Path, fs: FileSystem, h: Hasher)
    requires Lstat(fs, name).Success? && IsLnk(Lstat(fs, name).value.mode)
    requires Lstat(fs, name).value.target.Some? && NoNul(Lstat(fs, name).value.target.value)
    requires NoNul(name) && HasherOk(h)
    ensures Serialize(ReadDisk(name, fs), h, fs).Some?
    ensures !NeedsBackupIntended(MakeSubject(name, fs, Serialize(ReadDisk(name, fs), h, fs)), h, fs)
  {
    var p := ReadDisk(name, fs);
    PhysicalRoundTrip(p, h, fs);
  }

  /**
   * Under the intended comparison, a symbolic link whose target changed
   * since its record was written is selected again.
   */
  lemma RetargetedSymlinkReselected(name: Path, before: FileSystem, after: FileSystem, h: Hasher)
    requires Lstat(before, name).Success? && IsLnk(Lstat(before, name).value.mode)
    requires Lstat(before, name).value.target.Some? && NoNul(Lstat(before, name).value.target.value)
    requires Lstat(after, name).Success? && IsLnk(Lstat(after, name).value.mode)
    requires Lstat(after, name).value.target != Lstat(before, name).value.target
    requires NoNul(name) && HasherOk(h)
    ensures Serialize(ReadDisk(name, before), h, before).Some?
    ensures NeedsBackupIntended(MakeSubject(name, after, Serialize(ReadDisk(name, before), h, before)), h, after)
  {
    var p := ReadDisk(name, before);
    PhysicalRoundTrip(p, h, before);
  }
}

=== FILE: text.dfy ===
/**
 * The few Python string and number conversions the file-state records rely on:
 * "%i" formatting of integers, int() and float() parsing of text, and
 * str.split on a one-character separator together with its inverse join.
 */
module PyText {
  import opened Wrappers

  const NUL: char := 0 as char

  predicate IsDigit(c: char) { '0' <= c <= '9' }

  predicate AllDigits(s: string) { forall i :: 0 <= i < |s| ==> IsDigit(s[i]) }

  /** The whitespace that Python's int() and float() ignore around a number. */
  predicate IsSpace(c: char)
  {
    c == ' ' || c == '\t' || c == '\n' || c == '\r' || c == 11 as char || c == 12 as char
  }

  function DigitChar(d: nat): (c: char)
    requires d < 10
    ensures IsDigit(c)
  {
    ('0' as int + d) as char
  }

  function DigitValue(c: char): (d: nat)
    requires IsDigit(c)
    ensures d < 10
  {
    c as int - '0' as int
  }

  /** Decimal digits of a natural number, most significant first. */
  function NatStr(n: nat): (s: string)
    ensures |s| > 0 && AllDigits(s)
  {
    if n < 10 then [DigitChar(n)] else NatStr(n / 10) + [DigitChar(n % 10)]
  }

  /** Python's "%i" % n (and "%s" % n) for an integer n. */
  function IntStr(n: int): (s: string)
    ensures |s| > 0 && IsDigit(s[|s| - 1])
    ensures n >= 0 ==> AllDigits(s)
    ensures n < 0 ==> s[0] == '-' && AllDigits(s[1..])
  {
    if n < 0 then "-" + NatStr(-n) else NatStr(n)
  }

  /** The value of a string of decimal digits. */
  function DigitsValue(s: string): nat
    requires AllDigits(s)
  {
    if s == [] then 0 else DigitsValue(s[..|s| - 1]) * 10 + DigitValue(s[|s| - 1])
  }

  function Pow10(k: nat): (p: nat)
    ensures p >= 1
  {
    if k == 0 then 1 else 10 * Pow10(k - 1)
  }

  function TrimLeft(s: string): string
  {
    if |s| > 0 && IsSpace(s[0]) then TrimLeft(s[1..]) else s
  }

  function TrimRight(s: string): string
  {
    if |s| > 0 && IsSpace(s[|s| - 1]) then TrimRight(s[..|s| - 1]) else s
  }

  function Trim(s: string): string { TrimRight(TrimLeft(s)) }

  /**
   * An optional sign directly followed by at least one decimal digit, with
   * nothing around it: the exponent float() reads, and the int() text
   * without blanks.  None stands for the ValueError.
   */
  function ParseSigned(t: string): (r: Option<int>)
    ensures r.Some? ==> |t| > 0 && IsDigit(t[|t| - 1])
  {
    if |t| > 0 && (t[0] == '-' || t[0] == '+') then
      var d := t[1..];
      if |d| > 0 && AllDigits(d) then
        Some(if t[0] == '-' then -(DigitsValue(d) as int) else DigitsValue(d))
      else None
    else if |t| > 0 && AllDigits(t) then Some(DigitsValue(t))
    else None
  }

  /**
   * What Python 2's int() and long() accept once the surrounding whitespace
   * is gone: an optional sign, then, after any whitespace, at least one
   * digit.  Everything ParseSigned accepts is read the same way.
   */
  function ParseIntText(t: string): (r: Option<int>)
    ensures r.Some? ==> |t| > 0 && IsDigit(t[|t| - 1])
    ensures ParseSigned(t).Some? ==> r == ParseSigned(t)
  {
    if |t| > 0 && (t[0] == '-' || t[0] == '+') then
      TrimLeftSuffix(t[1..]);
      assert [t[0]] + t[1..] == t;
      ParseSigned([t[0]] + TrimLeft(t[1..]))
    else ParseSigned(t)
  }

  /** TrimLeft drops a prefix: what is left is a suffix of its argument. */
  lemma TrimLeftSuffix(s: string)
    ensures |TrimLeft(s)| <= |s| && TrimLeft(s) == s[|s| - |TrimLeft(s)|..]
  {
    if |s| > 0 && IsSpace(s[0]) {
      TrimLeftSuffix(s[1..]);
    }
  }

  /** Whitespace between the sign and the digits is skipped by int() and long(). */
  lemma {:induction false} BlankAfterSign(sign: char, blanks: string, d: string)
    requires sign == '-' || sign == '+'
    requires forall i :: 0 <= i < |blanks| ==> IsSpace(blanks[i])
    requires |d| > 0 && AllDigits(d)
    ensures ParseIntText([sign] + blanks + d) == ParseSigned([sign] + d)
    ensures ParseIntText([sign] + blanks + d) == Some(if sign == '-' then -(DigitsValue(d) as int) else DigitsValue(d))
  {
    var t := [sign] + blanks + d;
    assert t[1..] == blanks + d;
    TrimLeftBlanks(blanks, d);
    assert ([sign] + d)[1..] == d;
  }

  /** TrimLeft removes leading whitespace and stops at the first digit. */
  lemma {:induction false} TrimLeftBlanks(blanks: string, d: string)
    requires forall i :: 0 <= i < |blanks| ==> IsSpace(blanks[i])
    requires |d| > 0 && IsDigit(d[0])
    ensures TrimLeft(blanks + d) == d
    decreases |blanks|
  {
    if blanks == [] {
      assert blanks + d == d;
    } else {
      assert (blanks + d)[1..] == blanks[1..] + d;
      TrimLeftBlanks(blanks[1..], d);
    }
  }

  /** Python's int() applied to a string: surrounding whitespace, an optional sign and digits. */
  function ParseInt(s: string): Option<int>
  {
    ParseIntText(Trim(s))
  }

  /**
   * Python 2's long() applied to a string: as int(), and the digits may be
   * followed by one "L" or "l".  It accepts everything int() accepts, with
   * the same value.
   */
  function ParseLong(s: string): (r: Option<int>)
    ensures ParseInt(s).Some? ==> r == ParseInt(s)
  {
    var t := Trim(s);
    if |t| > 0 && (t[|t| - 1] == 'L' || t[|t| - 1] == 'l') then ParseIntText(t[..|t| - 1]) else ParseIntText(t)
  }

  /** What float() returns: a finite number, an infinity, or NaN. */
  datatype PyFloat = Finite(value: real) | Infinite(negative: bool) | NaN

  function LowerChar(c: char): char
  {
    if 'A' <= c <= 'Z' then (c as int + 32) as char else c
  }

  /** str.lower() on ASCII letters. */
  function Lower(s: string): (r: string)
    ensures |r| == |s| && forall i :: 0 <= i < |s| ==> r[i] == LowerChar(s[i])
  {
    seq(|s|, i requires 0 <= i < |s| => LowerChar(s[i]))
  }

  /** v times 10 raised to the integer power x. */
  function Scaled(v: real, x: int): real
  {
    if x >= 0 then v * Pow10(x) as real else v / Pow10(-x) as real
  }

  /** The value of the digits after a decimal point. */
  function Fraction(frac: string): real
    requires AllDigits(frac)
  {
    DigitsValue(frac) as real / Pow10(|frac|) as real
  }

  /** Digits with an optional fraction, at least one digit in all. */
  function ParseMantissa(m: string): Option<real>
  {
    var d := IndexOf(m, '.');
    var whole := if d < 0 then m else m[..d];
    var frac := if d < 0 then "" else m[d + 1..];
    if |whole| + |frac| > 0 && AllDigits(whole) && AllDigits(frac) then
      Some(DigitsValue(whole) as real + Fraction(frac))
    else None
  }

  /**
   * An unsigned decimal number in lower case: a mantissa, then optionally
   * "e" and a signed decimal exponent.
   */
  function ParseDecimal(body: string): Option<real>
  {
    var k := IndexOf(body, 'e');
    var mantissa := ParseMantissa(if k < 0 then body else body[..k]);
    var exponent := if k < 0 then Some(0) else ParseSigned(body[k + 1..]);
    if mantissa.Some? && exponent.Some? then Some(Scaled(mantissa.value, exponent.value)) else None
  }

  /**
   * Python's float() applied to a string: surrounding whitespace, an
   * optional sign, then either a decimal number with an optional exponent
   * or, in any letter case, "inf", "infinity" or "nan".  None stands for
   * the ValueError.
   */
  function ParseFloat(s: string): Option<PyFloat>
  {
    var t := Trim(s);
    var negative := |t| > 0 && t[0] == '-';
    FloatBody(negative, Lower(if |t| > 0 && (t[0] == '-' || t[0] == '+') then t[1..] else t))
  }

  /** float() after the sign: the lower-cased rest is a special value or a decimal number. */
  function FloatBody(negative: bool, body: string): Option<PyFloat>
  {
    if body == "inf" || body == "infinity" then Some(Infinite(negative))
    else if body == "nan" then Some(NaN)
    else match ParseDecimal(body)
      case None => None
      case Some(v) => Some(Finite(if negative then -v else v))
  }

  /** Index of the first occurrence of c in s, or -1 (str.find). */
  function IndexOf(s: string, c: char): (k: int)
    ensures -1 <= k < |s|
    ensures k >= 0 ==> s[k] == c && c !in s[..k]
    ensures k < 0 <==> c !in s
  {
    if s == [] then -1
    else if s[0] == c then 0
    else
      var k := IndexOf(s[1..], c);
      if k < 0 then -1
      else
        assert s[..k + 1] == [s[0]] + s[1..][..k];
        k + 1
  }

  /** Python's s.split(c): the pieces between occurrences of c, at least one. */
  function Split(s: string, c: char): (r: seq<string>)
    ensures |r| >= 1
    decreases |s|
  {
    var k := IndexOf(s, c);
    if k < 0 then [s] else [s[..k]] + Split(s[k + 1..], c)
  }

  /** c.join(fields), the inverse of Split. */
  function JoinWith(fields: seq<string>, c: char): string
    requires |fields| >= 1
  {
    if |fields| == 1 then fields[0] else fields[0] + [c] + JoinWith(fields[1..], c)
  }

  // ---------------------------------------------------------------------
  // Lemmas

  lemma TrimNoop(s: string)
    requires |s| > 0 && !IsSpace(s[0]) && !IsSpace(s[|s| - 1])
    ensures Trim(s) == s
  {
  }

  /** Reading back the digits NatStr writes gives the number. */
  lemma {:induction false} NatStrValue(n: nat)
    ensures DigitsValue(NatStr(n)) == n
  {
    if n >= 10 {
      var s := NatStr(n);
      assert s[..|s| - 1] == NatStr(n / 10);
      NatStrValue(n / 10);
    }
  }

  /** int() inverts "%i": ParseInt(IntStr(n)) == n for every integer. */
  lemma IntStrRoundTrip(n: int)
    ensures ParseInt(IntStr(n)) == Some(n)
  {
    TrimNoop(IntStr(n));
    IntStrSigned(n);
  }

  /** "%i" text is a sign and digits with no blank between them. */
  lemma IntStrSigned(n: int)
    ensures ParseSigned(IntStr(n)) == Some(n)
  {
    var s := IntStr(n);
    if n < 0 {
      assert s[1..] == NatStr(-n);
      NatStrValue(-n);
    } else {
      NatStrValue(n);
    }
  }

  /** Lower-casing leaves digits alone. */
  lemma LowerDigits(d: string)
    requires AllDigits(d)
    ensures Lower(d) == d
  {
  }

  /** A plain run of digits reads as its decimal value. */
  lemma DigitsDecimal(d: string)
    requires |d| > 0 && AllDigits(d)
    ensures ParseMantissa(d) == Some(DigitsValue(d) as real)
    ensures ParseDecimal(d) == Some(DigitsValue(d) as real)
  {
    DigitsMantissa(d);
    assert IndexOf(d, 'e') < 0 by {
      assert forall j :: 0 <= j < |d| ==> d[j] != 'e';
    }
    ScaledPower(DigitsValue(d) as real, 0);
  }

  /** A run of digits is a mantissa without a fraction. */
  lemma DigitsMantissa(d: string)
    requires |d| > 0 && AllDigits(d)
    ensures ParseMantissa(d) == Some(DigitsValue(d) as real)
  {
    assert IndexOf(d, '.') < 0 by {
      assert forall j :: 0 <= j < |d| ==> d[j] != '.';
    }
    assert AllDigits("") && Fraction("") == 0.0 by {
      assert DigitsValue("") == 0 && Pow10(0) == 1;
    }
    assert ParseMantissa(d) == Some(DigitsValue(d) as real + Fraction(""));
  }

  /** s starts with a digit, does not end in white space, and reads as the unsigned decimal v. */
  predicate DecimalText(s: string, v: real)
  {
    |s| > 0 && IsDigit(s[0]) && !IsSpace(s[|s| - 1]) && ParseDecimal(Lower(s)) == Some(v)
  }

  /** Text that starts with a digit is read as a decimal number. */
  lemma UnsignedFloat(s: string, v: real)
    requires DecimalText(s, v)
    ensures ParseFloat(s) == Some(Finite(v))
  {
    TrimNoop(s);
    var body := Lower(s);
    assert body != "inf" && body != "infinity" && body != "nan" by {
      assert IsDigit(body[0]);
    }
  }

  /** A minus sign in front of such text negates the number. */
  lemma NegatedFloat(t: string, s: string, v: real)
    requires DecimalText(s, v) && t == "-" + s
    ensures ParseFloat(t) == Some(Finite(-v))
  {
    TrimNoop(t);
    assert t[1..] == s;
    var body := Lower(s);
    assert body != "inf" && body != "infinity" && body != "nan" by {
      assert IsDigit(body[0]);
    }
  }

  /** The digits of a natural number, in any letter case, read as that number. */
  lemma NatStrDecimal(m: nat)
    ensures DecimalText(NatStr(m), m as real)
  {
    NatStrValue(m);
    LowerDigits(NatStr(m));
    DigitsDecimal(NatStr(m));
  }

  /** float() reads the digits of a natural number as that number. */
  lemma NatStrAsFloat(m: nat)
    ensures ParseFloat(NatStr(m)) == Some(Finite(m as real))
  {
    NatStrDecimal(m);
    UnsignedFloat(NatStr(m), m as real);
  }

  /** float() reads the "%i" text of a negative integer as that integer. */
  lemma NegIntStrAsFloat(n: int)
    requires n < 0
    ensures ParseFloat(IntStr(n)) == Some(Finite(n as real))
  {
    var m: nat := -n;
    NatStrDecimal(m);
    NegatedFloat(IntStr(n), NatStr(m), m as real);
  }

  /** float() reads back the integer text "%i" writes. */
  lemma IntStrAsFloat(n: int)
    ensures ParseFloat(IntStr(n)) == Some(Finite(n as real))
  {
    if n < 0 {
      NegIntStrAsFloat(n);
    } else {
      NatStrAsFloat(n);
    }
  }

  /** long() also reads the "%i" text followed by the L suffix of a Python 2 long. */
  lemma LongSuffix(n: int)
    ensures ParseLong(IntStr(n) + "L") == Some(n)
    ensures ParseLong(IntStr(n)) == Some(n)
  {
    var s := IntStr(n);
    TrimNoop(s + "L");
    assert (s + "L")[..|s|] == s;
    IntStrRoundTrip(n);
    TrimNoop(s);
  }

  /** Scaled multiplies by a power of ten for a non-negative exponent and divides for a negative one. */
  lemma ScaledPower(v: real, x: nat)
    ensures Scaled(v, x) == v * Pow10(x) as real
    ensures Scaled(v, -(x as int)) == v / Pow10(x) as real
    ensures Scaled(v, 0) == v
  {
    assert Pow10(0) == 1;
  }

  /** The first "e" in digits + "e" + rest is the one after the digits. */
  lemma ExponentSplit(whole: string, e: string)
    requires AllDigits(whole)
    ensures IndexOf(whole + "e" + e, 'e') == |whole|
    ensures (whole + "e" + e)[..|whole|] == whole && (whole + "e" + e)[|whole| + 1..] == e
  {
    assert 'e' !in whole by {
      assert forall j :: 0 <= j < |whole| ==> IsDigit(whole[j]);
    }
    IndexOfFirst(whole, 'e', e);
  }

  /** Digits, "e" and digits read as the mantissa scaled by the exponent. */
  lemma DecimalExponent(whole: string, e: string)
    requires |whole| > 0 && AllDigits(whole) && |e| > 0 && AllDigits(e)
    ensures ParseDecimal(whole + "e" + e) == Some(Scaled(DigitsValue(whole) as real, DigitsValue(e)))
  {
    ExponentSplit(whole, e);
    DigitsDecimal(whole);
    assert ParseSigned(e) == Some(DigitsValue(e));
  }

  /** Lower-casing digits around an exponent marker only lower-cases the marker. */
  lemma LowerExponent(whole: string, marker: char, e: string)
    requires AllDigits(whole) && AllDigits(e) && (marker == 'e' || marker == 'E')
    ensures Lower(whole + [marker] + e) == whole + "e" + e
  {
    var lower := whole + "e" + e;
    assert forall j :: 0 <= j < |whole| ==> lower[j] == whole[j];
    assert forall j :: 0 <= j < |e| ==> lower[|whole| + 1 + j] == e[j];
  }

  /** Digits, an exponent marker in either case and digits form decimal text. */
  lemma ExponentText(m: nat, marker: char, x: nat)
    requires marker == 'e' || marker == 'E'
    ensures DecimalText(NatStr(m) + [marker] + NatStr(x), Scaled(m as real, x))
  {
    var whole, e := NatStr(m), NatStr(x);
    NatStrValue(m);
    NatStrValue(x);
    DecimalExponent(whole, e);
    LowerExponent(whole, marker, e);
  }

  /** float() accepts exponent notation, with the exponent marker in either letter case. */
  lemma ExponentForm(m: nat, marker: char, x: nat)
    requires marker == 'e' || marker == 'E'
    ensures ParseFloat(NatStr(m) + [marker] + NatStr(x)) == Some(Finite(Scaled(m as real, x)))
  {
    ExponentText(m, marker, x);
    UnsignedFloat(NatStr(m) + [marker] + NatStr(x), Scaled(m as real, x));
  }

  /**
   * float() accepts "inf", "infinity" and "nan" in any letter case, with or
   * without a sign: a minus sign makes the infinity negative, and a NaN
   * stays a NaN whatever its sign.
   */
  lemma SpecialForms(sign: string, t: string)
    requires sign == "" || sign == "+" || sign == "-"
    requires Lower(t) == "inf" || Lower(t) == "infinity" || Lower(t) == "nan"
    ensures ParseFloat(sign + t) == if Lower(t) == "nan" then Some(NaN) else Some(Infinite(sign == "-"))
  {
    assert LowerChar(t[0]) == 'i' || LowerChar(t[0]) == 'n';
    assert LowerChar(t[|t| - 1]) == 'f' || LowerChar(t[|t| - 1]) == 'y' || LowerChar(t[|t| - 1]) == 'n';
    SignedFloat(sign, t);
  }

  /** float() of an optional sign and a text with no sign or space at its ends reads that text after the sign. */
  lemma SignedFloat(sign: string, t: string)
    requires sign == "" || sign == "+" || sign == "-"
    requires |t| > 0 && !IsSpace(t[0]) && !IsSpace(t[|t| - 1]) && t[0] != '-' && t[0] != '+'
    ensures ParseFloat(sign + t) == FloatBody(sign == "-", Lower(t))
  {
    var s := sign + t;
    assert s[|s| - 1] == t[|t| - 1];
    TrimNoop(s);
    if sign == "" {
      assert s == t;
    } else {
      assert s[0] == sign[0] && s[1..] == t;
    }
    assert (s[0] == '-') == (sign == "-");
  }

  /** Text that starts with a digit and is no decimal number is rejected. */
  lemma UnsignedReject(s: string)
    requires |s| > 0 && IsDigit(s[0]) && !IsSpace(s[|s| - 1]) && ParseDecimal(Lower(s)) == None
    ensures ParseFloat(s) == None
  {
    TrimNoop(s);
    var body := Lower(s);
    assert body != "inf" && body != "infinity" && body != "nan" by {
      assert IsDigit(body[0]);
    }
  }

  /** A mantissa and "e" with nothing after it is no decimal number. */
  lemma ExponentWithoutDigits(whole: string)
    requires AllDigits(whole)
    ensures ParseDecimal(whole + "e") == None
  {
    ExponentSplit(whole, "");
    assert whole + "e" + "" == whole + "e";
    assert ParseSigned("") == None;
  }

  /** float() rejects digits followed by an exponent marker, in either case, with no exponent digits. */
  lemma EmptyExponent(whole: string, marker: char)
    requires |whole| > 0 && AllDigits(whole) && (marker == 'e' || marker == 'E')
    ensures ParseFloat(whole + [marker]) == None
  {
    LowerExponent(whole, marker, "");
    assert whole + [marker] + "" == whole + [marker];
    ExponentWithoutDigits(whole);
    UnsignedReject(whole + [marker]);
  }

  /** The first separator in a + [c] + b is the one after a, when a holds none. */
  lemma {:induction false} IndexOfFirst(a: string, c: char, b: string)
    requires c !in a
    ensures IndexOf(a + [c] + b, c) == |a|
  {
    if a != [] {
      assert (a + [c] + b)[1..] == a[1..] + [c] + b;
      IndexOfFirst(a[1..], c, b);
    }
  }

  /** Splitting at a first separator peels off the piece before it. */
  lemma SplitCons(head: string, c: char, rest: string)
    requires c !in head
    ensures Split(head + [c] + rest, c) == [head] + Split(rest, c)
  {
    var s := head + [c] + rest;
    IndexOfFirst(head, c, rest);
    assert s[..|head|] == head;
    assert s[|head| + 1..] == rest;
  }

  /** Split inverts JoinWith when no field contains the separator. */
  lemma {:induction false} SplitJoin(fields: seq<string>, c: char)
    requires |fields| >= 1
    requires forall i :: 0 <= i < |fields| ==> c !in fields[i]
    ensures Split(JoinWith(fields, c), c) == fields
  {
    if |fields| > 1 {
      SplitCons(fields[0], c, JoinWith(fields[1..], c));
      SplitJoin(fields[1..], c);
      assert [fields[0]] + fields[1..] == fields;
    } else {
      assert IndexOf(fields[0], c) < 0;
    }
  }
}

=== FILE: wrappers.dfy ===
/** Option and Result, the failure-carrying values used throughout the model. */
module Wrappers {

  datatype Option<+T> = None | Some(value: T)

  datatype Result<+R, +E> = Success(value: R) | Failure(error: E)
}
